=== FILE: README.md ===
# Multi-team orchestration scripts: a Dafny model

This project models the decision logic of the small team scripts of the
meta-mega-orchestration pipeline, as pure Dafny functions over strings, sequences and maps.
Each script is one module:

- **`.env` loader** (`EnvLoader`, `scripts/load_env.py`). A left fold over the lines of the
  file. Blank and `#` lines are skipped, and each line is split at the first `=`. `${NAME}`
  references are expanded in two passes over the environment. The environment is an
  insertion-ordered list of pairs, because the expansion walks `os.environ.items()` in order.
- **Report processor** (`DataProcessor`, `process_resource_report` in
  `src/ct_002_data_processor.py`). The top-level keys are checked first, then the metric
  keys. The result is an error sentence or a fixed-template summary, computed over an
  abstract parsed JSON value (`Json`).
- **Disk reporter** (`ResourceReporter`, `scripts/dt_001_resource_reporter.py`). It takes
  fields from the second line of `df -h /` output and builds the error or success
  envelope.
- **File queue** (`FileQueue`). The producer writes `disk_usage_<stamp>.json.tmp` and then
  renames it to `disk_usage_<stamp>.json`. The consumer takes the greatest `.json` name,
  writes the processing result, and moves the file into `archive`. Directories are maps
  from names to documents.
- **Secret audit** (`ConfigAuditor`, `src/st_001_config_auditor.py`). The result is PASS
  exactly when the first line starting with `CRITICAL_SECRET_KEY=` has a non-blank value.
- **Monitoring classifiers** (`MonitoringAgent`, `scripts/monitoring_agent.py`). The health
  check gives alert, stale or OK; log insights are ranked critical, warning or info.

Shared modules model the Python built-ins these scripts use:

- `Text`: `str.strip` with the full `isspace` set, `split`, `split()`, `splitlines`,
  line iteration over a file, `replace`, `startswith` and `endswith`, and string order.
- `Numerals`: `int()` on base-10 text and `str()` of an integer.
- `Json`: `in` on parsed values, `all(...)`, `str()` of values.

### Behaviour to note

- The consumer serves the greatest `.json` name first: it takes `sorted(messages)[-1]`
  (src/ct_002_data_processor.py:72).
- The message is renamed into `archive` under its own name whatever processing returned,
  and the returned text, an error sentence included, is written as the output
  (src/ct_002_data_processor.py:80-92).
- The insight sentence is one fixed template, "well below the 80% threshold", for every
  usage value (src/ct_002_data_processor.py:54).
- The consumer writes the output file and renames the message, and nothing else
  (src/ct_002_data_processor.py:85-92).

## Model

| member | source | states |
|---|---|---|
| EnvLoader.ParseLine | scripts/load_env.py:11-19 | A line holds no binding exactly when it is blank after stripping, starts with `#`, or has no `=`. Otherwise the binding is exactly the stripped text before the first `=` and the stripped text after it; the key holds no `=`. |
| EnvLoader.ParseBinding | scripts/load_env.py:11-19 | A line `KEY=value`, with any whitespace before the key, around the `=` and after the value, reads back as exactly (KEY, value), even when the value holds further `=` or is empty. |
| EnvLoader.Interpolate | scripts/load_env.py:22-29 | A value containing no `$` is stored verbatim (the general expansion is `InterpolateTemplate`). |
| EnvLoader.ReplacePass | scripts/load_env.py:23-27 | One pass over `os.environ.items()`, replacing `${K}` by the value of `K` name by name in iteration order. It has no contract of its own: `PassTemplate` and `PassOnRef` state what a pass does to references, and `UnsetRefSurvivesPass` what it keeps. |
| EnvLoader.Assign | scripts/load_env.py:29 | After `os.environ[key] = value`, the key maps to the value and every other name keeps its value. An existing entry keeps its place; a new name is appended. |
| EnvLoader.AssignNew | scripts/load_env.py:29 | Assigning a name the environment does not hold appends it at the end of the iteration order. |
| EnvLoader.AssignKeepsDistinct | scripts/load_env.py:29 | Assignment never creates a second entry for a name. |
| EnvLoader.ApplyLine | scripts/load_env.py:10-29 | A blank, comment or `=`-less line leaves the environment unchanged. For a binding line, the loop stops exactly when the key or the interpolated value cannot be stored, and then the environment is kept; otherwise the key maps to the interpolated value and no other name changes. |
| EnvLoader.Storable | scripts/load_env.py:29 | `os.environ[key] = value` succeeds exactly for a non-empty key without NUL and a value without NUL. This is a definition with no contract; `ApplyLine` states that the loop stops exactly where it fails. |
| EnvLoader.LoadLines | scripts/load_env.py:10-29 | Folding over the lines keeps names distinct, and no lines means no change. |
| EnvLoader.LoadAppend | scripts/load_env.py:10-29 | Loading a file in two parts is loading the first part and then, unless an assignment raised, the second from where the first stopped. |
| EnvLoader.UnboundKept | scripts/load_env.py:10-29 | A key no line assigns keeps its value, whether or not the loop stopped early. |
| EnvLoader.LoadEnv | scripts/load_env.py:8-34 | A missing or unreadable file, or one without a binding line, leaves the environment as it was. A name no line of the file assigns keeps its value. Names stay distinct. |
| EnvLoader.InertLinesKeepEnv | scripts/load_env.py:11-16 | Any run of blank, comment and `=`-less lines leaves the environment unchanged. |
| EnvLoader.LaterLineWins | scripts/load_env.py:10-29 | When the loop runs to the end, a key's value is the last line binding it, interpolated in the environment the lines before it left. |
| EnvLoader.LoadEnvLastBinding | scripts/load_env.py:8-29 | In a readable file whose lines all load, the last line assigning a key decides its value. |
| EnvLoader.EarlierLineVisible | scripts/load_env.py:22-29 | `${K}` anywhere in a later line's value, between texts without `$`, reads as the value an earlier line of the same file gave `K`, when every name already in the environment is plain (holds no `$` or `}`). |
| EnvLoader.InterpolateRef | scripts/load_env.py:22-27 | `${K}` alone expands to the current value of `K`, for a plain name `K` (no `$` or `}`) whose value holds no `$`. |
| EnvLoader.InterpolateRefIn | scripts/load_env.py:22-27 | `${K}` between texts without `$` expands to the value of `K`, the texts around it kept, when every name in the environment is plain. |
| EnvLoader.InterpolateTwoRefs | scripts/load_env.py:22-27 | Two references in one value, with `$`-free text around them, expand independently to their names' values, when every name in the environment is plain. |
| EnvLoader.InterpolateTemplate | scripts/load_env.py:22-27 | For a value made of `$`-free literal text and `${name}` references, the two passes replace each reference to a name the environment holds by its value and keep each reference to a name it does not hold. It needs every name in the environment, not only the referenced ones, to be plain, and every referenced value to hold no `$`. |
| EnvLoader.PassTemplate | scripts/load_env.py:23-24 | Under the same conditions, one pass over the environment already resolves every reference of such a value. |
| EnvLoader.ReplaceRender | scripts/load_env.py:24 | Replacing `${k}` turns exactly the references to `k` into the value and leaves literal text and other references alone. |
| EnvLoader.RefUntouched | scripts/load_env.py:24 | Replacing `${K}` leaves `${X}` for a different plain name `X` as it is. |
| EnvLoader.PassOnRef | scripts/load_env.py:23-24 | A single pass over the environment turns `${K}` into the value of `K`, for a plain name `K` whose value holds no `$`. |
| EnvLoader.UnsetRefKept | scripts/load_env.py:23-27 | A reference `${X}` to a plain name the environment does not hold stays literally in the stored value, when every name in the environment is plain. |
| EnvLoader.UnsetRefSurvivesPass | scripts/load_env.py:23-24 | One pass of replacements keeps every `${X}` reference to an unset plain name `X`, when every name in the environment is plain. |
| EnvLoader.RefSurvivesReplace | scripts/load_env.py:24 | Replacing `${K}` never destroys an occurrence of `${X}`, for two different plain names `K` and `X`. |
| DataProcessor.Validate | src/ct_002_data_processor.py:29-57 | A dict lacking a top-level key gets the top-level error, whatever its metrics. With all top-level keys present, a metrics dict lacking a metric key gets the metrics error. The result is a summary exactly for well-formed reports, and that summary carries `team_id`, `resource_type`, the three metrics and the timestamp, or `N/A` when there is none. Values that `in` cannot search raise. |
| DataProcessor.Process | src/ct_002_data_processor.py:14-25 | A missing file gives exactly the not-found result, and malformed JSON exactly the invalid-JSON result. A summary comes only from a parsed, well-formed report. |
| DataProcessor.Message | src/ct_002_data_processor.py:14-25 | A processing result has text to write exactly when processing did not raise. |
| DataProcessor.SummaryAlwaysBelowThreshold | src/ct_002_data_processor.py:42-56 | Every accepted report's text says "well below the 80% threshold" and "Processing Status: SUCCESS", whatever its usage. |
| DataProcessor.SummaryText | src/ct_002_data_processor.py:42-56 | The summary template, with the team, timestamp, resource type and three metrics filled in. Its partner `SummaryTextMentions` states that every summary contains the "well below the 80% threshold" sentence and "Processing Status: SUCCESS". |
| DataProcessor.SummaryTextMentions | src/ct_002_data_processor.py:42-56 | Whatever its fields, the summary text contains "well below the 80% threshold" and "Processing Status: SUCCESS". |
| DataProcessor.ExtraKeysIgnored | src/ct_002_data_processor.py:30-39 | Two reports that agree on the keys the processor reads get the same outcome. Extra keys never matter. |
| ResourceReporter.DiskUsage | scripts/dt_001_resource_reporter.py:19-32 | Metrics are produced only from output of at least two lines whose second line has at least five fields. The filesystem is field 0, the sizes come from fields 1-3, and the percentage is `int` of field 4 with `%` removed. Any failure gives None. |
| ResourceReporter.DiskUsageOfDfOutput | scripts/dt_001_resource_reporter.py:19-55 | For output with any whitespace around it, a header line starting with a non-blank, and a second line that ends in a non-blank and whose `split()` gives a filesystem, three sizes and a percentage `N%` first, the result is exactly those values. |
| ResourceReporter.DiskUsageOfColumns | scripts/dt_001_resource_reporter.py:19-55 | `df` output ending in a newline, whose second line lays out the fields in columns separated by runs of blanks, gives back exactly the filesystem, sizes and percentage of those fields. |
| ResourceReporter.PercentValueOfDf | scripts/dt_001_resource_reporter.py:32-52 | A percentage field `N%` reads back as `N`. |
| ResourceReporter.PercentValue | scripts/dt_001_resource_reporter.py:32 | The percentage field with every `%` removed, read by `int()` at line 52 of the same file. It has no contract of its own; `PercentValueOfDf` reads `N%` back as `N`. |
| ResourceReporter.GenerateReport | scripts/dt_001_resource_reporter.py:64-86 | The error envelope is produced exactly when collection fails. The success envelope carries the collected metrics, and both carry the given timestamp. |
| ResourceReporter.ToJson | scripts/dt_001_resource_reporter.py:70-84 | The error envelope has exactly `timestamp`, `team_id`, `status: ERROR` and the failure message, with no `resource_type` or `metrics`. The success envelope has exactly `timestamp`, `team_id = Data Team`, `resource_type = Disk Usage` and `metrics`. |
| ResourceReporter.ProcessorReadsReports | scripts/dt_001_resource_reporter.py:79-84 | The processor accepts every success envelope and reads its values back. It rejects every error envelope with the top-level-keys error. |
| FileQueue.Greatest | src/ct_002_data_processor.py:72 | The chosen name is a candidate, and no candidate sorts after it. |
| FileQueue.GreatestUnique | src/ct_002_data_processor.py:72 | A candidate that sorts at or after every candidate is the one chosen. |
| FileQueue.LatestMessage | src/ct_002_data_processor.py:66-72 | One scan of the directory listing finds nothing exactly when no name ends in `.json`. Otherwise it finds the name `sorted(messages)[-1]` picks. |
| FileQueue.Consume | src/ct_002_data_processor.py:64-92 | With no `.json` name nothing happens. Otherwise the greatest candidate is processed. The run crashes exactly when processing raised; otherwise the output is the processing result's message and the file leaves `new` for `archive` under the same name with the same contents. |
| FileQueue.ConsumeLeavesOthers | src/ct_002_data_processor.py:90-92 | Every file other than the consumed one keeps its directory and its contents. |
| FileQueue.GarbledMessageArchived | src/ct_002_data_processor.py:80-92 | A message that is not JSON is still archived, and the output holds the invalid-JSON sentence. |
| FileQueue.ConsumeNewestFirst | src/ct_002_data_processor.py:66-92 | A run removes exactly its message from the candidates. The next run takes a name that sorts no later, so the queue is served newest first. |
| FileQueue.MessageName | scripts/dt_001_resource_reporter.py:97-98 | The published name ends in `.json`, so the consumer accepts it. |
| FileQueue.TempName | scripts/dt_001_resource_reporter.py:101 | The temporary name does not end in `.json` and differs from the final name. |
| FileQueue.Rename | scripts/dt_001_resource_reporter.py:105 | After a rename the target holds the source's contents and the source name is gone. Every other name is untouched. |
| FileQueue.Publish | scripts/dt_001_resource_reporter.py:92-105 | With `MQ_NEW_DIR` unset or empty, nothing is published. Otherwise the directory holds the report's JSON under `disk_usage_<stamp>.json`, and no temporary file remains. Every other file is untouched. |
| FileQueue.WriteTemp | scripts/dt_001_resource_reporter.py:101-103 | The contents are first written under the temporary name. |
| FileQueue.TempInvisible | scripts/dt_001_resource_reporter.py:101-103 | While the temporary file exists, the consumer sees exactly the candidates it saw before. |
| FileQueue.PublishAddsOneCandidate | scripts/dt_001_resource_reporter.py:101-105 | The final rename makes exactly one new candidate visible: the message. |
| FileQueue.MessageOrder | scripts/dt_001_resource_reporter.py:97-98 | For timestamps of equal width, the string order of message names is the numeric order of their timestamps. |
| FileQueue.PublishedIsGreatest | src/ct_002_data_processor.py:66-72 | When every waiting message is older, the new message is the one the consumer picks. |
| FileQueue.NewestIsGreatest | src/ct_002_data_processor.py:72 | Among waiting messages that are all older than the new stamp, `sorted(...)[-1]` is the new message. |
| FileQueue.PublishThenConsume | src/ct_002_data_processor.py:64-92 | After a publish whose message is newest, the next consumer run takes it and archives the report's JSON. A success report is summarised; an error envelope yields the top-level-keys sentence and is still archived. |
| FileQueue.ConsumeReport | src/ct_002_data_processor.py:72-92 | A run whose newest message is a report envelope archives it under its name. A success envelope is summarised, and an error envelope yields the top-level-keys sentence. |
| ConfigAuditor.Default | src/st_001_config_auditor.py:15-21 | The result starts as FAIL with the missing-or-empty message. |
| ConfigAuditor.FirstStarting | src/st_001_config_auditor.py:30 | The line found starts with the prefix, and no earlier line does. Nothing is found exactly when no line starts with it. |
| ConfigAuditor.ValueOfKeyLine | src/st_001_config_auditor.py:31 | On the secret's line, `split('=', 1)[1]` is the text after `CRITICAL_SECRET_KEY=`. |
| ConfigAuditor.Passes | src/st_001_config_auditor.py:27-31 | The checks of the code hold exactly when the first line starting with `CRITICAL_SECRET_KEY=` has a non-blank value. |
| ConfigAuditor.Audit | src/st_001_config_auditor.py:15-38 | `audit_time`, `team` and `check` never change. The status is PASS exactly for a readable file whose secret is set, and FAIL otherwise. A missing file and a read error each give their own message, and a readable file without the secret gives exactly the default. |
| ConfigAuditor.EmptyFirstNotRescued | src/st_001_config_auditor.py:30-31 | A first secret line with an empty or blank value fails, whatever later lines hold. |
| ConfigAuditor.MisplacedKeyFails | src/st_001_config_auditor.py:28-31 | The key preceded by `#`, by indentation or by `X_` on its line fails. |
| ConfigAuditor.SingleLineDecides | src/st_001_config_auditor.py:28-33 | A one-line file `CRITICAL_SECRET_KEY=v` passes exactly when `v` is not blank. |
| MonitoringAgent.CheckHealth | scripts/monitoring_agent.py:15-38 | A missing file is reported as missing. Any status other than `HEALTHY`, a missing one included, is an alert for that status, and the time is not looked at. The result is stale or OK exactly for a healthy record whose time can be read, and it is stale exactly when more than five minutes have elapsed. |
| MonitoringAgent.DeltaSeconds | scripts/monitoring_agent.py:33 | `timedelta.seconds` lies in 0..86399 and, for a duration under a day, is its whole seconds. |
| MonitoringAgent.StaleThreshold | scripts/monitoring_agent.py:26-33 | Stale exactly when elapsed time exceeds five minutes. Exactly five minutes, or a time in the future, is OK. |
| MonitoringAgent.MissingStatusAlerts | scripts/monitoring_agent.py:19-24 | A record without a status alerts for `UNKNOWN`. |
| MonitoringAgent.AnalyzeLog | scripts/monitoring_agent.py:45-61 | A missing file is reported as missing. For a parsed log, the result is critical exactly when the insight contains `CRITICAL`, a warning exactly when it contains `WARNING` but not `CRITICAL`, and info exactly when it contains neither. |
| MonitoringAgent.InsightPriority | scripts/monitoring_agent.py:51-56 | For a string insight, CRITICAL wins over WARNING, and text with neither is info. |
| MonitoringAgent.MissingInsightIsInfo | scripts/monitoring_agent.py:49-56 | A log without an insight reports "No insight found." as info. |
| Text.Trim | scripts/load_env.py:11 | `strip()` leaves no whitespace at either end and never lengthens the text. |
| Text.TrimEmpty | scripts/load_env.py:11-12 | A line strips to empty exactly when it is all whitespace. |
| Text.TrimPadded | scripts/load_env.py:11 | `strip()` of a text with no whitespace at either end, padded with whitespace on both sides, gives back that text. |
| Text.SplitOn | scripts/dt_001_resource_reporter.py:19 | `split('\n')` gives at least one part, and no part holds a newline. There is a single part exactly when the text has no newline, and joining the parts restores the text. |
| Text.FieldsOfUnwords | scripts/dt_001_resource_reporter.py:26 | `split()` of fields joined by single spaces gives back those fields. |
| Text.Fields | scripts/dt_001_resource_reporter.py:26 | `split()`: the pieces are non-empty and hold no whitespace. Its partners `FieldsOfUnwords` and `FieldsOfSpread` state which fields come back. |
| Text.FieldsOfSpread | scripts/dt_001_resource_reporter.py:26 | `split()` of fields separated by runs of whitespace of any width gives back those fields. |
| Text.LineOccurs | src/st_001_config_auditor.py:28-30 | Every line that `splitlines()` produces occurs in the text. |
| Text.SplitLinesBy | src/st_001_config_auditor.py:30 | `splitlines()` and the lines `for line in f` yields: no line holds a line break, and a text has lines exactly when it is not empty. Its partner `SplitLinesOfJoin` states that the lines cover the text in order. |
| Text.SplitLinesOfJoin | src/st_001_config_auditor.py:30 | Break-free lines joined by any mix of line ends (`\r\n`, a lone `\r`, `\n` or any other break character), the last line possibly unended, split back into exactly those lines. A trailing break opens no empty last line. |
| Text.SplitLinesCons | src/st_001_config_auditor.py:30 | A break-free first line ended by any break other than `\r` is split off whole. |
| Text.SplitLinesCrLf | scripts/load_env.py:10 | A break-free first line ended by `\r\n` is split off whole: the pair is one break. |
| Text.SplitLinesCr | scripts/load_env.py:10 | A first line ended by a `\r` that no `\n` follows is split off whole. |
| Text.ReplaceSkip | scripts/load_env.py:24 | `replace` leaves a prefix that cannot start the pattern untouched. |
| Text.ReplacePrefix | scripts/load_env.py:24 | `replace` copies a leading part holding no first character of the pattern as it is, and replaces in the rest. |
| Text.ReplaceAbsent | scripts/load_env.py:24 | A text without the pattern's first character is returned unchanged by `replace`. |
| Text.ReplaceAll | scripts/load_env.py:24 | `str.replace`: non-overlapping matches, left to right. It has no contract of its own; `ReplaceSkip`, `ReplacePrefix`, `ReplaceAbsent` and `EnvLoader.ReplaceRender` state what it does. |
| Numerals.ParseInt | scripts/dt_001_resource_reporter.py:52 | `int()` accepts only text made of signs, digits, underscores and the whitespace it ignores: ASCII whitespace, and non-ASCII characters that `str.isspace()` accepts. It reads a plain digit string as its value. |
| Numerals.SeparatorRejected | scripts/dt_001_resource_reporter.py:52 | A U+001C-U+001F separator in front of the digits is rejected, although `str.isspace()` accepts it. |
| Numerals.SeparatorRejectedBesideNonAscii | scripts/dt_001_resource_reporter.py:52 | The separator is rejected even when the text also holds a non-ASCII space. |
| Numerals.NonAsciiSpaceIgnored | scripts/dt_001_resource_reporter.py:52 | A non-ASCII space such as U+00A0 or U+3000 around the digits is ignored. |
| Numerals.ParseIntPadded | scripts/dt_001_resource_reporter.py:52 | A rendered integer with any whitespace `int()` ignores on either side reads back as that integer. |
| Numerals.ParseIntOfIntToString | scripts/dt_001_resource_reporter.py:52 | `int(str(n)) == n`. |
| Numerals.FixedWidthOrder | scripts/dt_001_resource_reporter.py:97 | For digit strings of one width, string order is numeric order. |
| Json.ContainsAll | src/ct_002_data_processor.py:31 | `all(k in v for k in keys)` raises exactly on a non-searchable value with keys to check, and is true exactly when every key is in `v`. |
| Json.Contains | src/ct_002_data_processor.py:31 | `key in v` raises exactly on a value that is not a dict, list or string. |

## Left out

- `parse_size_to_gb` and `round(_, 1)` (scripts/dt_001_resource_reporter.py:35-51) are float parsing and float arithmetic. They are the parameter `toGb`, and the sizes are opaque reals.
- Running `df`: its standard output is a parameter, and None stands for `CalledProcessError`.
- `json.load` and `json.dump`: files hold an abstract `Document` (not JSON, unreadable, or a parsed value). A published report is read back as the value written.
- Clocks: `datetime.now`, `isoformat` and `strftime` are parameters. `fromisoformat` is the parameter `parseTime`; its None also covers a time zone-aware result that cannot be subtracted from the naive `now`.
- MonitoringAgent.CheckHealth: times are integer microseconds, the resolution of Python's `datetime`, rather than whole seconds. A record 300.5 seconds old is therefore stale.
- `print` output: the monitoring classifiers return which message they print, with the status or insight value, not the text.
- `str()` of floats, lists and dicts is the parameter `repr`.
- `int()` of non-ASCII digits is not modelled.
- EnvLoader.InterpolateTemplate: covers only values whose literal text holds no `$` at all, so a value such as `pa$$${HOME}` or `$5 ${X}` is not characterised. It also requires every name in the environment to be plain, because a name holding `}` can match across a reference: with `K}x` set to `Z`, `${K}x}` becomes `Z`. A referenced value that brings in `${...}` of its own is expanded again by the second pass, and that case is not characterised either. The same restrictions apply to `PassTemplate`, `InterpolateRefIn`, `InterpolateTwoRefs` and `EarlierLineVisible`. `InterpolateRef`, `PassOnRef` and `RefSurvivesReplace` hold only for plain referenced names, and `UnsetRefKept` and `UnsetRefSurvivesPass` only when every name in the environment and the unset name are plain. Without that, with `a` set to `X` and `a}b` set to `v`, `${a}b}` becomes `Xb}` rather than `v`, and with `K}x` set, `${K}` does not survive although `K` is unset.
- Writing the audit report file (src/st_001_config_auditor.py:40-44) is not modelled; `Audit` returns the dict.
- The consumer's `os.listdir` failure branch (src/ct_002_data_processor.py:75-77) is not modelled: the `new` directory is always readable.
- The producer's directory is the one `MQ_NEW_DIR` names. `Publish` takes that directory's contents as a parameter and does not check that it is the consumer's `new` directory.
- A decoding error partway through the `.env` file is not modelled: a file is readable in full or not at all.
- The call to `load_env` when the reporter is imported (scripts/dt_001_resource_reporter.py:10) is not modelled; `Publish` takes the environment as it is.
- Exit statuses, and producer and consumer runs interleaving beyond the temporary-file step, are not modelled.
- `src/rt_001_pdf_generator.py` is not part of this model: it only shells out to an external converter.
- `setup.py` and `tests/conftest.py` are packaging and fixtures.
- `tests/test_code_team.py` calls a dict-based API and expects threshold text, and the code has neither, so its expectations are not encoded.

=== FILE: config_auditor.dfy ===
/** The Security Team audit `run_security_audit`: it reads the `.env` file and reports PASS
    when the first line starting with `CRITICAL_SECRET_KEY=` carries a non-empty value,
    and FAIL, with a message saying why, otherwise. */
module ConfigAuditor {
  import opened Wrappers
  import opened Text

  const SecretVarName := "CRITICAL_SECRET_KEY"

  /** What a line must start with to be the secret's line. */
  const KeyPrefix := SecretVarName + "="

  const Team := "Security Team (ST-001)"
  const Check := "Presence and value of " + SecretVarName + " in .env"
  const FailMessage := "CRITICAL: " + SecretVarName + " is missing or empty in .env file."
  const PassMessage := "PASS: " + SecretVarName + " is present and has a non-empty value."

  /** The `audit_result` dict. */
  datatype AuditResult = AuditResult(auditTime: string, team: string, check: string, status: string, message: string)

  /** Lines 15-21: the result before the file is looked at, a FAIL. */
  function Default(now: string): (r: AuditResult)
    ensures r.status == "FAIL" && r.message == FailMessage
  {
    AuditResult(now, Team, Check, "FAIL", FailMessage)
  }

  /** The index of the first line starting with `p`, as `next(...)` over the lines finds it. */
  function FirstStarting(lines: seq<string>, p: string): (r: Option<nat>)
    ensures r.None? <==> forall i :: 0 <= i < |lines| ==> !StartsWith(lines[i], p)
    ensures r.Some? ==> r.value < |lines| && StartsWith(lines[r.value], p)
    ensures r.Some? ==> forall j :: 0 <= j < r.value ==> !StartsWith(lines[j], p)
  {
    if |lines| == 0 then None
    else if StartsWith(lines[0], p) then Some(0)
    else
      assert forall i :: 1 <= i < |lines| ==> lines[i] == lines[1..][i - 1];
      match FirstStarting(lines[1..], p)
      case None => None
      case Some(i) => Some(i + 1)
  }

  /** `line.split('=', 1)[1].strip()`: the stripped text after the first `=`. */
  function ValueAfterEquals(line: string): string
    requires '=' in line
  {
    var i := FirstIndex(line, '=');
    Trim(line[i + 1..])
  }

  /** On the secret's line the first `=` is the one closing the prefix. */
  lemma ValueOfKeyLine(line: string)
    requires StartsWith(line, KeyPrefix)
    ensures '=' in line && ValueAfterEquals(line) == Trim(line[|KeyPrefix|..])
  {
    var n := |KeyPrefix| - 1;
    assert line[n] == KeyPrefix[n] == '=';
    assert line[..n] == SecretVarName;
    assert '=' !in SecretVarName;
    assert FirstIndex(line, '=') == n;
  }

  /** The PASS condition, stated on the lines of the file: some line starts with the
      prefix, and the first such line has something other than whitespace after it. */
  predicate SecretSet(content: string) {
    var lines := SplitLinesBy(content, IsLineBoundary);
    exists i :: 0 <= i < |lines| && StartsWith(lines[i], KeyPrefix)
      && (forall j :: 0 <= j < i ==> !StartsWith(lines[j], KeyPrefix))
      && Trim(lines[i][|KeyPrefix|..]) != []
  }

  /** Lines 28-31 on the text of the file: the text holds the prefix, some line starts
      with it, and the first such line is non-empty with a non-blank value. */
  function Passes(content: string): (b: bool)
    ensures b <==> SecretSet(content)
  {
    var lines := SplitLinesBy(content, IsLineBoundary);
    var b := Occurs(KeyPrefix, content) && FirstKeyLineHasValue(lines);
    if b then PassesIsSet(content); b
    else if SecretSet(content) then SetPasses(content); b
    else b
  }

  /** Line 31 on the first line starting with the prefix: `line` is non-empty and its
      value after the first `=` is not blank once stripped. */
  function FirstKeyLineHasValue(lines: seq<string>): bool {
    match FirstStarting(lines, KeyPrefix)
    case None => false
    case Some(i) =>
      ValueOfKeyLine(lines[i]);
      lines[i] != [] && |ValueAfterEquals(lines[i])| > 0
  }

  /** `run_security_audit` with the clock reading `now`, the path it reports, and the file:
      None when it does not exist. Only the status and the message can differ from the
      default, and the status is PASS exactly when the secret is set. */
  function Audit(now: string, envPath: string, file: Option<TextFile>): (r: AuditResult)
    ensures r.auditTime == now && r.team == Team && r.check == Check
    ensures r.status == "PASS" <==> file.Some? && file.value.Readable? && SecretSet(file.value.text)
    ensures r.status != "PASS" ==> r.status == "FAIL"
    ensures r.status == "PASS" ==> r.message == PassMessage
    ensures file.None? ==> r.message == "CRITICAL: .env file not found at " + envPath + "."
    ensures file.Some? && file.value.ReadError? ==> r.message == "ERROR during audit: " + file.value.detail
    ensures file.Some? && file.value.Readable? && !SecretSet(file.value.text) ==> r == Default(now)
  {
    var base := Default(now);
    match file
    case None => base.(message := "CRITICAL: .env file not found at " + envPath + ".")
    case Some(ReadError(e)) => base.(message := "ERROR during audit: " + e)
    case Some(Readable(content)) =>
      if Passes(content) then base.(status := "PASS", message := PassMessage) else base
  }

  /** The first line starting with the prefix is part of the text, so the text holds it. */
  lemma KeyLineInText(content: string, i: nat)
    requires i < |SplitLinesBy(content, IsLineBoundary)|
    requires StartsWith(SplitLinesBy(content, IsLineBoundary)[i], KeyPrefix)
    ensures Occurs(KeyPrefix, content)
  {
    var line := SplitLinesBy(content, IsLineBoundary)[i];
    var k := LineOccurs(content, IsLineBoundary, i);
    assert content[k..k + |KeyPrefix|] == line[..|KeyPrefix|];
    assert OccursAt(KeyPrefix, content, k);
  }

  lemma PassesIsSet(content: string)
    requires Occurs(KeyPrefix, content)
    requires FirstStarting(SplitLinesBy(content, IsLineBoundary), KeyPrefix).Some?
    requires var lines := SplitLinesBy(content, IsLineBoundary);
      var line := lines[FirstStarting(lines, KeyPrefix).value];
      '=' in line && |ValueAfterEquals(line)| > 0
    ensures SecretSet(content)
  {
    var lines := SplitLinesBy(content, IsLineBoundary);
    var i := FirstStarting(lines, KeyPrefix).value;
    ValueOfKeyLine(lines[i]);
  }

  lemma SetPasses(content: string)
    requires SecretSet(content)
    ensures Occurs(KeyPrefix, content)
    ensures var lines := SplitLinesBy(content, IsLineBoundary);
      && FirstStarting(lines, KeyPrefix).Some?
      && var line := lines[FirstStarting(lines, KeyPrefix).value];
         line != [] && '=' in line && |ValueAfterEquals(line)| > 0
  {
    var lines := SplitLinesBy(content, IsLineBoundary);
    var m :| 0 <= m < |lines| && StartsWith(lines[m], KeyPrefix)
      && (forall j :: 0 <= j < m ==> !StartsWith(lines[j], KeyPrefix))
      && Trim(lines[m][|KeyPrefix|..]) != [];
    var i := FirstStarting(lines, KeyPrefix).value;
    assert i == m;
    KeyLineInText(content, m);
    ValueOfKeyLine(lines[m]);
  }

  /** A first occurrence with an empty or blank value fails, whatever later lines hold. */
  lemma EmptyFirstNotRescued(now: string, envPath: string, first: string, rest: string)
    requires StartsWith(first, KeyPrefix) && AllSpace(first[|KeyPrefix|..])
    requires forall j :: 0 <= j < |first| ==> !IsLineBoundary(first[j])
    ensures Audit(now, envPath, Some(Readable(first + "\n" + rest))).status == "FAIL"
  {
    var content := first + "\n" + rest;
    SplitLinesCons(first, '\n', rest, IsLineBoundary);
    assert first + "\n" + rest == first + ['\n'] + rest;
    var lines := SplitLinesBy(content, IsLineBoundary);
    assert lines[0] == first;
    assert FirstStarting(lines, KeyPrefix) == Some(0);
    TrimEmpty(first[|KeyPrefix|..]);
    ValueOfKeyLine(first);
  }

  /** The key on a one-line file but not at the start of the line, as after `#`, after
      indentation or inside a longer name such as `X_CRITICAL_SECRET_KEY`, fails. */
  lemma MisplacedKeyFails(now: string, envPath: string, lead: string, value: string)
    requires lead != [] && lead[0] != 'C'
    requires forall j :: 0 <= j < |lead + KeyPrefix + value| ==> !IsLineBoundary((lead + KeyPrefix + value)[j])
    ensures Audit(now, envPath, Some(Readable(lead + KeyPrefix + value))).status == "FAIL"
  {
    var content := lead + KeyPrefix + value;
    SplitLinesSingle(content, IsLineBoundary);
    var lines := SplitLinesBy(content, IsLineBoundary);
    assert !StartsWith(lines[0], KeyPrefix) by {
      assert content[0] == lead[0];
    }
  }

  /** A one-line file `CRITICAL_SECRET_KEY=value` passes exactly when the value is not
      blank. */
  lemma SingleLineDecides(now: string, envPath: string, value: string)
    requires forall j :: 0 <= j < |value| ==> !IsLineBoundary(value[j])
    ensures Audit(now, envPath, Some(Readable(KeyPrefix + value))).status == "PASS" <==> !AllSpace(value)
  {
    var content := KeyPrefix + value;
    assert forall j :: 0 <= j < |content| ==> !IsLineBoundary(content[j]) by {
      assert forall j :: |KeyPrefix| <= j < |content| ==> content[j] == value[j - |KeyPrefix|];
    }
    SingleLineSet(content, value);
  }

  /** The secret is set on a one-line text exactly when that line is the prefix followed
      by a value that is not blank. */
  lemma SingleLineSet(content: string, value: string)
    requires content == KeyPrefix + value
    requires forall j :: 0 <= j < |content| ==> !IsLineBoundary(content[j])
    ensures SecretSet(content) <==> !AllSpace(value)
  {
    SplitLinesSingle(content, IsLineBoundary);
    var lines := SplitLinesBy(content, IsLineBoundary);
    assert lines[0][|KeyPrefix|..] == value;
    TrimEmpty(value);
    if !AllSpace(value) {
      assert StartsWith(lines[0], KeyPrefix);
    }
  }
}

=== FILE: data_processor.dfy ===
/** The Code Team processor's `process_resource_report`: it reads one report file,
    checks the top-level keys and then the metric keys, and returns either an error
    sentence or a fixed-template summary. */
module DataProcessor {
  import opened Wrappers
  import opened Text
  import opened Json

  const TopLevelKeys: seq<string> := ["team_id", "resource_type", "metrics"]
  const MetricKeys: seq<string> := ["usage_percent", "size_gb", "used_gb"]

  /** What `process_resource_report` does with one file. `Raised` is an exception that
      escapes the function (indexing or `.get` on a value that is not a dict). */
  datatype Outcome =
    | NotFound
    | InvalidJson
    | ReadFailed(detail: string)
    | MissingTopLevelKeys
    | MissingMetricKeys
    | Summary(team: Json, timestamp: Json, resource: Json, usage: Json, size: Json, used: Json)
    | Raised

  /** The report shape the processor accepts, stated directly on the JSON value: a dict
      with the three top-level keys whose `metrics` is a dict with the three metric keys. */
  predicate WellFormedReport(report: Json) {
    && report.JObj?
    && HasTopLevelKeys(report.fields)
    && report.fields["metrics"].JObj?
    && HasMetricKeys(report.fields["metrics"].fields)
  }

  predicate HasTopLevelKeys(fields: map<string, Json>) {
    "team_id" in fields && "resource_type" in fields && "metrics" in fields
  }

  predicate HasMetricKeys(fields: map<string, Json>) {
    "usage_percent" in fields && "size_gb" in fields && "used_gb" in fields
  }

  /** A dict lacking one of the top-level keys. */
  predicate LacksTopLevelKey(report: Json) {
    report.JObj? && !HasTopLevelKeys(report.fields)
  }

  /** A dict with every top-level key whose `metrics` dict lacks one of the metric keys. */
  predicate LacksMetricKey(report: Json) {
    && report.JObj?
    && HasTopLevelKeys(report.fields)
    && report.fields["metrics"].JObj?
    && !HasMetricKeys(report.fields["metrics"].fields)
  }

  /** Lines 29-57 applied to the value `json.load` returned. The top-level check runs
      first, so a dict missing keys of both kinds gets the top-level error. */
  function Validate(report: Json): (o: Outcome)
    ensures LacksTopLevelKey(report) ==> o == MissingTopLevelKeys
    ensures LacksMetricKey(report) ==> o == MissingMetricKeys
    ensures o.Summary? <==> WellFormedReport(report)
    ensures o.Summary? ==>
      && o.team == report.fields["team_id"]
      && o.resource == report.fields["resource_type"]
      && o.timestamp == (if "timestamp" in report.fields then report.fields["timestamp"] else JStr("N/A"))
      && o.usage == report.fields["metrics"].fields["usage_percent"]
      && o.size == report.fields["metrics"].fields["size_gb"]
      && o.used == report.fields["metrics"].fields["used_gb"]
    ensures !Searchable(report) ==> o == Raised
  {
    match ContainsAll(report, TopLevelKeys)
    case None => Raised
    case Some(false) => MissingTopLevelKeys
    case Some(true) =>
      if !report.JObj? then Raised
      else
        assert Contains(report, TopLevelKeys[0]) == Some(true);
        assert Contains(report, TopLevelKeys[1]) == Some(true);
        assert Contains(report, TopLevelKeys[2]) == Some(true);
        var metrics := report.fields["metrics"];
        match ContainsAll(metrics, MetricKeys)
        case None => Raised
        case Some(false) => MissingMetricKeys
        case Some(true) =>
          if !metrics.JObj? then Raised
          else
            assert Contains(metrics, MetricKeys[0]) == Some(true);
            assert Contains(metrics, MetricKeys[1]) == Some(true);
            assert Contains(metrics, MetricKeys[2]) == Some(true);
            Summary(
              report.fields["team_id"],
              if "timestamp" in report.fields then report.fields["timestamp"] else JStr("N/A"),
              report.fields["resource_type"],
              metrics.fields["usage_percent"],
              metrics.fields["size_gb"],
              metrics.fields["used_gb"])
  }

  /** `process_resource_report` on a file: absent (None), not JSON, unreadable, or parsed. */
  function Process(file: Option<Document>): (o: Outcome)
    ensures o == NotFound <==> file.None?
    ensures o == InvalidJson <==> file == Some(Garbled)
    ensures o.Summary? <==> file.Some? && file.value.Parsed? && WellFormedReport(file.value.value)
  {
    match file
    case None => NotFound
    case Some(Garbled) => InvalidJson
    case Some(Unreadable(detail)) => ReadFailed(detail)
    case Some(Parsed(report)) => Validate(report)
  }

  const Rule := "---------------------------------------------"
  const BelowThreshold := "well below the 80% threshold"

  const Status := "Processing Status: SUCCESS\n"
  const InsightLead := "Actionable Insight: "
  const InsightSuffix := ", indicating no immediate action is required."

  function InsightPrefix(usage: string): string {
    "The system is operating at " + usage + "% disk capacity. This is "
  }

  /** The insight sentence: one template for every usage value. */
  function Insight(usage: string): string {
    InsightPrefix(usage) + BelowThreshold + InsightSuffix
  }

  function Header(team: string, timestamp: string, resource: string): string {
    "\nCode Team (CT-002) Processing Report:\n" + Rule + "\n"
    + "Source Team: " + team + "\n"
    + "Report Timestamp: " + timestamp + "\n"
    + "Resource Type: " + resource + "\n\n"
  }

  function Figures(usage: string, size: string, used: string): string {
    "Disk Usage: " + usage + "%\n"
    + "Total Size: " + size + " GB\n"
    + "Used Space: " + used + " GB\n\n"
  }

  /** The summary string of lines 42-56. */
  function SummaryText(team: string, timestamp: string, resource: string, usage: string, size: string, used: string): string {
    Header(team, timestamp, resource) + Status + Figures(usage, size, used)
    + InsightLead + Insight(usage) + "\n" + Rule + "\n"
  }

  const TopLevelError := "Error: JSON structure is missing required top-level keys."
  const MetricsError := "Error: JSON metrics object is missing required keys."

  function NotFoundError(path: string): string {
    "Error: Data Team artifact not found at " + path
  }

  function InvalidJsonError(path: string): string {
    "Error: Data Team artifact at " + path + " is not valid JSON. Processing halted."
  }

  /** The string `process_resource_report` returns for `path`, or None when it raises;
      `repr` renders floats, lists and dicts as Python's `str()` does. */
  function Message(path: string, o: Outcome, repr: Json -> string): (r: Option<string>)
    ensures r.None? <==> o.Raised?
  {
    match o
    case NotFound => Some(NotFoundError(path))
    case InvalidJson => Some(InvalidJsonError(path))
    case ReadFailed(detail) => Some("Error reading file: " + detail)
    case MissingTopLevelKeys => Some(TopLevelError)
    case MissingMetricKeys => Some(MetricsError)
    case Summary(team, timestamp, resource, usage, size, used) =>
      Some(SummaryText(Show(team, repr), Show(timestamp, repr), Show(resource, repr),
                       Show(usage, repr), Show(size, repr), Show(used, repr)))
    case Raised => None
  }

  /** Every accepted report is told it is well below the 80% threshold and marked SUCCESS,
      whatever its usage: the insight has no threshold branch. */
  lemma SummaryAlwaysBelowThreshold(path: string, report: Json, repr: Json -> string)
    requires WellFormedReport(report)
    ensures Message(path, Validate(report), repr).Some?
    ensures Occurs(BelowThreshold, Message(path, Validate(report), repr).value)
    ensures Occurs("Processing Status: SUCCESS", Message(path, Validate(report), repr).value)
  {
    var o := Validate(report);
    var text := SummaryText(Show(o.team, repr), Show(o.timestamp, repr), Show(o.resource, repr),
                            Show(o.usage, repr), Show(o.size, repr), Show(o.used, repr));
    assert Message(path, o, repr) == Some(text) by {
      MessageOfSummary(path, o, repr);
    }
    SummaryTextMentions(Show(o.team, repr), Show(o.timestamp, repr), Show(o.resource, repr),
                        Show(o.usage, repr), Show(o.size, repr), Show(o.used, repr));
  }

  lemma MessageOfSummary(path: string, o: Outcome, repr: Json -> string)
    requires o.Summary?
    ensures Message(path, o, repr) == Some(SummaryText(Show(o.team, repr), Show(o.timestamp, repr), Show(o.resource, repr),
                                                        Show(o.usage, repr), Show(o.size, repr), Show(o.used, repr)))
  {
  }

  lemma SummaryTextMentions(team: string, timestamp: string, resource: string, usage: string, size: string, used: string)
    ensures Occurs(BelowThreshold, SummaryText(team, timestamp, resource, usage, size, used))
    ensures Occurs("Processing Status: SUCCESS", SummaryText(team, timestamp, resource, usage, size, used))
  {
    var head := Header(team, timestamp, resource);
    var figures := Figures(usage, size, used);
    var insight := Insight(usage);
    var success := "Processing Status: SUCCESS";
    assert Occurs(BelowThreshold, insight) by {
      OccursInMiddle(InsightPrefix(usage), BelowThreshold, InsightSuffix);
    }
    assert Occurs(success, Status) by {
      assert Status == [] + success + "\n";
      OccursInMiddle([], success, "\n");
    }
    OccursRight(success, head, Status);
    OccursLeft(success, head + Status, figures);
    OccursLeft(success, head + Status + figures, InsightLead);
    var lead := head + Status + figures + InsightLead;
    OccursLeft(success, lead, insight);
    OccursRight(BelowThreshold, lead, insight);
    Trailer(success, lead + insight);
    Trailer(BelowThreshold, lead + insight);
  }

  /** The closing rule does not hide anything before it. */
  lemma Trailer(p: string, s: string)
    requires Occurs(p, s)
    ensures Occurs(p, s + "\n" + Rule + "\n")
  {
    OccursLeft(p, s, "\n");
    OccursLeft(p, s + "\n", Rule);
    OccursLeft(p, s + "\n" + Rule, "\n");
  }

  /** Two reports that agree on the keys the processor reads agree on the outcome: extra
      keys, at the top level or inside `metrics`, never change it. */
  lemma ExtraKeysIgnored(a: map<string, Json>, b: map<string, Json>)
    requires AgreeOn(a, b, "team_id") && AgreeOn(a, b, "resource_type") && AgreeOn(a, b, "timestamp")
    requires "metrics" in a <==> "metrics" in b
    requires "metrics" in a ==> SameMetrics(a["metrics"], b["metrics"])
    ensures Validate(JObj(a)) == Validate(JObj(b))
  {
    if "metrics" in a && a["metrics"] != b["metrics"] {
      var ma, mb := a["metrics"].fields, b["metrics"].fields;
      assert HasMetricKeys(ma) <==> HasMetricKeys(mb);
    }
  }

  /** `a` and `b` both lack `key` or both map it to the same value. */
  predicate AgreeOn(a: map<string, Json>, b: map<string, Json>, key: string) {
    (key in a <==> key in b) && (key in a ==> a[key] == b[key])
  }

  /** Two `metrics` values the processor cannot tell apart: equal, or two dicts that agree
      on the three metric keys. */
  predicate SameMetrics(x: Json, y: Json) {
    || x == y
    || (&& x.JObj? && y.JObj?
        && AgreeOn(x.fields, y.fields, "usage_percent")
        && AgreeOn(x.fields, y.fields, "size_gb")
        && AgreeOn(x.fields, y.fields, "used_gb"))
  }
}

=== FILE: env_loader.dfy ===
/** The `.env` loader `load_env`: it reads the file line by line, and every `KEY=value`
    line assigns into the process environment, after `${NAME}` references in the value
    have been replaced from the environment in two passes. */
module EnvLoader {
  import opened Wrappers
  import opened Text

  /** `os.environ` as the list of (name, value) pairs `os.environ.items()` yields, in
      insertion order. */
  type Env = seq<(string, string)>

  predicate KeysDistinct(env: Env) {
    forall i, j :: 0 <= i < j < |env| ==> env[i].0 != env[j].0
  }

  /** `os.environ.get(key)`. */
  function Lookup(env: Env, key: string): (r: Option<string>)
    ensures r.None? <==> forall i :: 0 <= i < |env| ==> env[i].0 != key
    ensures r.Some? ==> exists i :: 0 <= i < |env| && env[i] == (key, r.value)
  {
    if |env| == 0 then None
    else if env[0].0 == key then Some(env[0].1)
    else
      var r := Lookup(env[1..], key);
      assert forall i :: 1 <= i < |env| ==> env[i] == env[1..][i - 1];
      r
  }

  /** `os.environ[key] = value`: an existing entry keeps its place and takes the new
      value, a new name is appended; no other name changes. */
  function Assign(env: Env, key: string, value: string): (r: Env)
    ensures Lookup(r, key) == Some(value)
    ensures forall k :: k != key ==> Lookup(r, k) == Lookup(env, k)
    ensures |r| == |env| || r == env + [(key, value)]
    ensures forall i :: 0 <= i < |r| ==> r[i].0 == key || r[i] in env
    ensures Lookup(env, key).Some? ==> SamePlaces(env, r, key)
  {
    UpdateLookup(env, key, value);
    UpdateShape(env, key, value);
    Update(env, key, value)
  }

  /** The dict update itself: the first entry named `key` takes the value, or the pair
      goes at the end. */
  function Update(env: Env, key: string, value: string): Env
    decreases |env|
  {
    if |env| == 0 then [(key, value)]
    else if env[0].0 == key then [(key, value)] + env[1..]
    else [env[0]] + Update(env[1..], key, value)
  }

  lemma {:induction false} UpdateLookup(env: Env, key: string, value: string)
    ensures Lookup(Update(env, key, value), key) == Some(value)
    ensures forall k :: k != key ==> Lookup(Update(env, key, value), k) == Lookup(env, k)
    decreases |env|
  {
    var r := Update(env, key, value);
    if |env| > 0 {
      assert r[1..] == if env[0].0 == key then env[1..] else Update(env[1..], key, value);
      if env[0].0 != key {
        UpdateLookup(env[1..], key, value);
      }
    }
  }

  lemma {:induction false} UpdateShape(env: Env, key: string, value: string)
    ensures var r := Update(env, key, value);
      && (|r| == |env| || r == env + [(key, value)])
      && (forall i :: 0 <= i < |r| ==> r[i].0 == key || r[i] in env)
      && (Lookup(env, key).Some? ==> SamePlaces(env, r, key))
    decreases |env|
  {
    var r := Update(env, key, value);
    if |env| > 0 {
      if env[0].0 == key {
        assert r[1..] == env[1..];
        assert SamePlaces(env, r, key);
      } else {
        var rest := Update(env[1..], key, value);
        UpdateShape(env[1..], key, value);
        assert r == [env[0]] + rest && r[1..] == rest;
        assert env == [env[0]] + env[1..];
        if |rest| != |env[1..]| {
          assert r == env + [(key, value)];
        }
        if Lookup(env, key).Some? {
          SamePlacesCons(env[0], env[1..], rest, key);
        }
      }
    }
  }

  /** `r` has the names of `env` in the same places, and changes no entry but `key`'s. */
  predicate SamePlaces(env: Env, r: Env, key: string) {
    |r| == |env| && forall i :: 0 <= i < |env| ==> r[i].0 == env[i].0 && (env[i].0 != key ==> r[i] == env[i])
  }

  lemma SamePlacesCons(head: (string, string), tail: Env, rest: Env, key: string)
    requires SamePlaces(tail, rest, key)
    ensures SamePlaces([head] + tail, [head] + rest, key)
  {
    assert forall i :: 1 <= i < |tail| + 1 ==> ([head] + tail)[i] == tail[i - 1] && ([head] + rest)[i] == rest[i - 1];
  }

  /** Assigning a name the environment does not hold appends it. */
  lemma {:induction false} AssignNew(env: Env, key: string, value: string)
    requires Lookup(env, key).None?
    ensures Assign(env, key, value) == env + [(key, value)]
    decreases |env|
  {
    if |env| > 0 {
      LookupPast(env, key);
      AssignNew(env[1..], key, value);
      AssignPast(env, key, value);
      assert env == [env[0]] + env[1..];
    }
  }

  /** A name other than the first is looked up in the rest. */
  lemma LookupPast(env: Env, key: string)
    requires |env| > 0 && env[0].0 != key
    ensures Lookup(env, key) == Lookup(env[1..], key)
  {
  }

  /** Assigning a name other than the first leaves the first entry in front. */
  lemma AssignPast(env: Env, key: string, value: string)
    requires |env| > 0 && env[0].0 != key
    ensures Assign(env, key, value) == [env[0]] + Assign(env[1..], key, value)
  {
  }

  /** Assigning keeps the names distinct. */
  lemma {:induction false} AssignKeepsDistinct(env: Env, key: string, value: string)
    requires KeysDistinct(env)
    ensures KeysDistinct(Assign(env, key, value))
    decreases |env|
  {
    if |env| > 0 {
      var tail := env[1..];
      if env[0].0 == key {
        assert Assign(env, key, value) == [(key, value)] + tail;
      } else {
        assert KeysDistinct(tail);
        AssignKeepsDistinct(tail, key, value);
        AssignPast(env, key, value);
        ConsDistinct(env[0], tail, Assign(tail, key, value), key);
      }
    }
  }

  /** A first entry whose name the rest does not hold, in front of an assignment to
      another name, keeps the names distinct. */
  lemma ConsDistinct(head: (string, string), tail: Env, rest: Env, key: string)
    requires head.0 != key && KeysDistinct(rest)
    requires forall i :: 0 <= i < |tail| ==> tail[i].0 != head.0
    requires forall i :: 0 <= i < |rest| ==> rest[i].0 == key || rest[i] in tail
    ensures KeysDistinct([head] + rest)
  {
    var r := [head] + rest;
    forall i | 0 <= i < |rest| ensures rest[i].0 != head.0 {
      if rest[i].0 != key {
        var j :| 0 <= j < |tail| && tail[j] == rest[i];
      }
    }
    assert forall i :: 1 <= i < |r| ==> r[i] == rest[i - 1];
  }

  /** The text `${name}` that `load_env` replaces by the value of `name`. */
  function Ref(name: string): (r: string)
    ensures |r| == |name| + 3 && r[0] == '$' && r[1] == '{' && r[|r| - 1] == '}'
    ensures r[2..|r| - 1] == name
  {
    "${" + name + "}"
  }

  /** A name that cannot end a reference early or start another one. */
  predicate Plain(name: string) {
    '$' !in name && '}' !in name
  }

  predicate AllNamesPlain(env: Env) {
    forall i :: 0 <= i < |env| ==> Plain(env[i].0)
  }

  /** One pass over `os.environ.items()` (lines 23-24, and again 26-27): each `${K}` is
      replaced by the value of `K`, name by name, in iteration order. */
  function ReplacePass(env: Env, value: string): string
    decreases |env|
  {
    if |env| == 0 then value
    else ReplacePass(env[1..], ReplaceAll(value, Ref(env[0].0), env[0].1))
  }

  /** Lines 22-27: a value holding `$` goes through two passes; others are kept as read. */
  function Interpolate(env: Env, value: string): (r: string)
    ensures '$' !in value ==> r == value
  {
    if '$' in value then ReplacePass(env, ReplacePass(env, value)) else value
  }

  /** Lines 11-19: the binding a line holds. Blank lines, `#` comments and lines without
      `=` hold none; otherwise the key is the stripped text before the first `=` and the
      value is the stripped text after it, which may hold further `=`. */
  function ParseLine(line: string): (b: Option<(string, string)>)
    ensures b.None? <==> var t := Trim(line); t == [] || t[0] == '#' || '=' !in t
    ensures b.Some? ==> Trimmed(b.value.0) && Trimmed(b.value.1) && '=' !in b.value.0
    ensures b.Some? ==> SplitAtEquals(Trim(line), b.value)
  {
    BindingOf(Trim(line))
  }

  /** `kv` is `t` split at its first `=`, both halves stripped. */
  predicate SplitAtEquals(t: string, kv: (string, string)) {
    '=' in t && var i := FirstIndex(t, '=');
    kv == (Trim(t[..i]), Trim(t[i + 1..]))
  }

  /** The binding a stripped line holds. */
  function BindingOf(t: string): (b: Option<(string, string)>)
    ensures b.None? <==> t == [] || t[0] == '#' || '=' !in t
    ensures b.Some? ==> '=' in t && b.value == SplitBinding(t)
  {
    if t == [] || t[0] == '#' || '=' !in t then None
    else Some(SplitBinding(t))
  }

  /** `line.split('=', 1)` with both halves stripped (lines 17-19). */
  function SplitBinding(t: string): (kv: (string, string))
    requires '=' in t
    ensures Trimmed(kv.0) && Trimmed(kv.1) && '=' !in kv.0
    ensures SplitAtEquals(t, kv)
  {
    KeyHasNoEquals(t);
    var i := FirstIndex(t, '=');
    (Trim(t[..i]), Trim(t[i + 1..]))
  }

  /** The stripped text before the first `=` holds no `=`. */
  lemma KeyHasNoEquals(t: string)
    requires '=' in t
    ensures '=' !in Trim(t[..FirstIndex(t, '=')])
  {
    var i := FirstIndex(t, '=');
    var k := TrimShape(t[..i]);
  }

  /** `os.environ[key] = value` succeeds: `putenv` refuses an empty name and any NUL. */
  predicate Storable(key: string, value: string) {
    key != [] && '\0' !in key && '\0' !in value
  }

  /** Where the loop stands: still reading, or stopped by an assignment that raised (the
      `except Exception` around the whole loop ends it, keeping earlier assignments). */
  datatype Progress = Continue(env: Env) | Aborted(env: Env)

  /** One turn of the loop at lines 10-29. */
  function ApplyLine(env: Env, line: string): (p: Progress)
    ensures ParseLine(line).None? ==> p == Continue(env)
    ensures p.Aborted? ==> p.env == env && ParseLine(line).Some?
    ensures ParseLine(line).Some? ==>
      (p.Aborted? <==> !Storable(ParseLine(line).value.0, Interpolate(env, ParseLine(line).value.1)))
    ensures p.Continue? && ParseLine(line).Some? ==>
      var (key, raw) := ParseLine(line).value;
      && Lookup(p.env, key) == Some(Interpolate(env, raw))
      && (forall k :: k != key ==> Lookup(p.env, k) == Lookup(env, k))
    ensures KeysDistinct(env) ==> KeysDistinct(p.env)
  {
    match ParseLine(line)
    case None => Continue(env)
    case Some((key, raw)) =>
      var value := Interpolate(env, raw);
      if Storable(key, value) then
        if KeysDistinct(env) then AssignKeepsDistinct(env, key, value); Continue(Assign(env, key, value))
        else Continue(Assign(env, key, value))
      else Aborted(env)
  }

  /** The loop over the lines of the file, first line first. */
  function LoadLines(env: Env, lines: seq<string>): (p: Progress)
    ensures KeysDistinct(env) ==> KeysDistinct(p.env)
    ensures |lines| == 0 ==> p == Continue(env)
    decreases |lines|
  {
    if |lines| == 0 then Continue(env)
    else
      match ApplyLine(env, lines[0])
      case Aborted(e) => Aborted(e)
      case Continue(e) => LoadLines(e, lines[1..])
  }

  /** `load_env(env_path)`: None is a missing file (a warning, nothing loaded); a file
      that cannot be read loads nothing; otherwise its lines, split as `for line in f`
      splits them, are loaded in order. */
  function LoadEnv(env: Env, file: Option<TextFile>): (r: Env)
    ensures file.None? || file.value.ReadError? ==> r == env
    ensures file.Some? && file.value.Readable? && Inert(FileLines(file.value.text)) ==> r == env
    ensures forall k :: Untouched(file, k) ==> Lookup(r, k) == Lookup(env, k)
    ensures KeysDistinct(env) ==> KeysDistinct(r)
  {
    match file
    case None => env
    case Some(ReadError(_)) => env
    case Some(Readable(text)) =>
      var lines := FileLines(text);
      assert Inert(lines) ==> LoadLines(env, lines) == Continue(env) by {
        if Inert(lines) {
          InertLinesKeepEnv(env, lines);
        }
      }
      UnboundKeptAll(env, lines);
      LoadLines(env, lines).env
  }

  /** The lines `for line in f` yields. */
  function FileLines(text: string): seq<string> {
    SplitLinesBy(text, IsNewline)
  }

  /** No line holds a binding. */
  predicate Inert(lines: seq<string>) {
    forall i :: 0 <= i < |lines| ==> ParseLine(lines[i]).None?
  }

  /** `line` assigns `key`. */
  predicate Binds(line: string, key: string) {
    ParseLine(line).Some? && ParseLine(line).value.0 == key
  }

  /** The file, when there is one to read, has no line assigning `key`. */
  predicate Untouched(file: Option<TextFile>, key: string) {
    file.Some? && file.value.Readable? ==>
      forall i :: 0 <= i < |FileLines(file.value.text)| ==> !Binds(FileLines(file.value.text)[i], key)
  }

  /** Loading a file in two parts is loading the first part and then, unless it stopped
      at a failed assignment, the second from where the first left off. */
  lemma {:induction false} LoadAppend(env: Env, a: seq<string>, b: seq<string>)
    ensures LoadLines(env, a).Aborted? ==> LoadLines(env, a + b) == LoadLines(env, a)
    ensures LoadLines(env, a).Continue? ==>
      LoadLines(env, a + b) == LoadLines(LoadLines(env, a).env, b)
    decreases |a|
  {
    if |a| == 0 {
      assert a + b == b;
    } else {
      assert (a + b)[0] == a[0] && (a + b)[1..] == a[1..] + b;
      var p := ApplyLine(env, a[0]);
      if p.Continue? {
        LoadAppend(p.env, a[1..], b);
      }
    }
  }

  /** A key no line assigns keeps the value it had, whether or not the loop stopped early. */
  lemma {:induction false} UnboundKept(env: Env, lines: seq<string>, key: string)
    requires forall i :: 0 <= i < |lines| ==> !Binds(lines[i], key)
    ensures Lookup(LoadLines(env, lines).env, key) == Lookup(env, key)
    decreases |lines|
  {
    if |lines| > 0 {
      assert !Binds(lines[0], key);
      var p := ApplyLine(env, lines[0]);
      if p.Continue? {
        assert forall i :: 0 <= i < |lines| - 1 ==> lines[1..][i] == lines[i + 1];
        UnboundKept(p.env, lines[1..], key);
      }
    }
  }

  lemma UnboundKeptAll(env: Env, lines: seq<string>)
    ensures forall k :: (forall i :: 0 <= i < |lines| ==> !Binds(lines[i], k)) ==>
      Lookup(LoadLines(env, lines).env, k) == Lookup(env, k)
  {
    forall k | forall i :: 0 <= i < |lines| ==> !Binds(lines[i], k)
      ensures Lookup(LoadLines(env, lines).env, k) == Lookup(env, k)
    {
      UnboundKept(env, lines, k);
    }
  }

  /** Blank lines, comments and lines without `=` leave the environment as it was. */
  lemma {:induction false} InertLinesKeepEnv(env: Env, lines: seq<string>)
    requires forall i :: 0 <= i < |lines| ==> ParseLine(lines[i]).None?
    ensures LoadLines(env, lines) == Continue(env)
    decreases |lines|
  {
    if |lines| > 0 {
      assert ParseLine(lines[0]).None?;
      assert forall i :: 0 <= i < |lines| - 1 ==> lines[1..][i] == lines[i + 1];
      InertLinesKeepEnv(env, lines[1..]);
    }
  }

  /** A line `KEY=value`, with any whitespace around the key, the `=` and the value,
      reads back as the key and value it was written from. */
  lemma ParseBinding(w0: string, key: string, w1: string, w2: string, value: string, w3: string)
    requires AllSpace(w0) && AllSpace(w1) && AllSpace(w2) && AllSpace(w3)
    requires key != [] && Trimmed(key) && '=' !in key && key[0] != '#'
    requires Trimmed(value)
    ensures ParseLine(w0 + key + w1 + "=" + w2 + value + w3) == Some((key, value))
  {
    var rest := if value == [] then [] else w2 + value;
    PaddedLineTrim(w0, key, w1, w2, value, w3);
    assert Trim(rest) == value by {
      if value != [] {
        TrimPadded(w2, value, []);
        assert w2 + value + [] == rest;
      }
    }
    ParseStrippedBinding(w0 + key + w1 + "=" + w2 + value + w3, key, w1, rest, value);
  }

  /** A line that strips to the key, its padding, `=` and a rest parses to the key and
      the stripped rest. */
  lemma ParseStrippedBinding(line: string, key: string, w1: string, rest: string, value: string)
    requires Trim(line) == key + w1 + "=" + rest && Trim(rest) == value
    requires AllSpace(w1) && key != [] && Trimmed(key) && '=' !in key && key[0] != '#'
    ensures ParseLine(line) == Some((key, value))
  {
    var n := BindingParts(key + w1 + "=" + rest, key, w1, rest);
    ParseAt(line, key + w1 + "=" + rest, n, key, value);
  }

  /** The stripped binding text splits at its first `=` into the key and the rest. */
  lemma BindingParts(t: string, key: string, w1: string, rest: string) returns (n: nat)
    requires t == key + w1 + "=" + rest
    requires AllSpace(w1) && key != [] && Trimmed(key) && '=' !in key && key[0] != '#'
    ensures n == |key| + |w1|
    ensures t != [] && t[0] != '#' && '=' in t && FirstIndex(t, '=') == n
    ensures Trim(t[..n]) == key && t[n + 1..] == rest
  {
    n := |key| + |w1|;
    BindingSplit(key, w1, rest);
    assert t[0] == key[0];
    TrimSameText(t[..n], key + w1);
    TrimTrailing(key, w1);
  }

  /** A line whose stripped text has its first `=` at `n` parses to the stripped
      text on either side. */
  lemma ParseAt(line: string, t: string, n: nat, key: string, value: string)
    requires Trim(line) == t
    requires t != [] && t[0] != '#'
    requires '=' in t && FirstIndex(t, '=') == n
    requires Trim(t[..n]) == key
    requires Trim(t[n + 1..]) == value
    ensures ParseLine(line) == Some((key, value))
  {
  }

  /** Stripping a padded binding line leaves the key, its padding, the `=` and, when
      there is a value, the whitespace before it and the value. */
  lemma PaddedLineTrim(w0: string, key: string, w1: string, w2: string, value: string, w3: string)
    requires AllSpace(w0) && AllSpace(w2) && AllSpace(w3)
    requires key != [] && !IsSpace(key[0]) && Trimmed(value)
    ensures var rest := if value == [] then [] else w2 + value;
      Trim(w0 + key + w1 + "=" + w2 + value + w3) == key + w1 + "=" + rest
  {
    var c := key + w1 + "=";
    var front := w0 + key + w1 + "=";
    assert front == w0 + c by {
      Assoc(w0, key, w1);
      Assoc(w0, key + w1, "=");
    }
    assert c[0] == key[0] && c[|c| - 1] == '=';
    if value == [] {
      assert front + w2 + value == front + w2;
      Assoc(w0 + c, w2, w3);
      AllSpaceConcat(w2, w3);
      TrimPadded(w0, c, w2 + w3);
      assert c + [] == c;
    } else {
      var t := c + w2 + value;
      assert front + w2 + value == w0 + t by {
        Assoc(w0, c, w2);
        Assoc(w0, c + w2, value);
      }
      assert t[0] == key[0] && t[|t| - 1] == value[|value| - 1];
      TrimPadded(w0, t, w3);
      Assoc(c, w2, value);
    }
  }

  /** In a stripped binding line the first `=` is the one after the key and its padding. */
  lemma BindingSplit(key: string, w1: string, rest: string)
    requires AllSpace(w1) && '=' !in key
    ensures var t := key + w1 + "=" + rest; var n := |key| + |w1|;
      && '=' in t && FirstIndex(t, '=') == n
      && t[..n] == key + w1 && t[n + 1..] == rest
  {
    var t := key + w1 + "=" + rest;
    var n := |key| + |w1|;
    assert t[..n] == key + w1 && t[n] == '=' && t[n + 1..] == rest;
    assert '=' !in key + w1 by {
      assert forall j :: 0 <= j < |w1| ==> IsSpace(w1[j]);
    }
    FirstIndexAt(t, '=', n);
  }

  /** The last line assigning a key decides its value: the value written there, expanded
      against the environment as the lines before it left it. */
  lemma LaterLineWins(env: Env, lines: seq<string>, j: nat, key: string, v: string)
    requires j < |lines| && ParseLine(lines[j]) == Some((key, v))
    requires forall i :: j < i < |lines| ==> !Binds(lines[i], key)
    requires LoadLines(env, lines).Continue?
    ensures LoadLines(env, lines[..j]).Continue?
    ensures Lookup(LoadLines(env, lines).env, key) == Some(Interpolate(LoadLines(env, lines[..j]).env, v))
  {
    NoBindingInTail(lines, j + 1, key);
    assert lines[j..][0] == lines[j] && lines[j..][1..] == lines[j + 1..];
    PrefixThenRest(env, lines, j);
    BindingThenInert(LoadLines(env, lines[..j]).env, lines[j..], key, v);
  }

  /** A load that ran to the end ran through every prefix, and went on from there. */
  lemma PrefixThenRest(env: Env, lines: seq<string>, j: nat)
    requires j <= |lines| && LoadLines(env, lines).Continue?
    ensures LoadLines(env, lines[..j]).Continue?
    ensures LoadLines(env, lines) == LoadLines(LoadLines(env, lines[..j]).env, lines[j..])
  {
    assert lines == lines[..j] + lines[j..];
    LoadAppend(env, lines[..j], lines[j..]);
  }

  /** Lines starting with a binding of `key` and then never binding it again leave `key`
      with the value of that first line. */
  lemma BindingThenInert(env: Env, lines: seq<string>, key: string, v: string)
    requires |lines| > 0 && ParseLine(lines[0]) == Some((key, v))
    requires forall i :: 0 <= i < |lines| - 1 ==> !Binds(lines[1..][i], key)
    requires LoadLines(env, lines).Continue?
    ensures Lookup(LoadLines(env, lines).env, key) == Some(Interpolate(env, v))
  {
    var p := ApplyLine(env, lines[0]);
    LoadStep(env, lines);
    assert p.Continue?;
    assert Lookup(p.env, key) == Some(Interpolate(env, v));
    UnboundKept(p.env, lines[1..], key);
  }

  /** No line after `j` assigns `key`: nor does any line of the suffix that follows. */
  lemma NoBindingInTail(lines: seq<string>, j: nat, key: string)
    requires j <= |lines| && forall i :: j <= i < |lines| ==> !Binds(lines[i], key)
    ensures forall i :: 0 <= i < |lines| - j ==> !Binds(lines[j..][i], key)
  {
    forall i | 0 <= i < |lines| - j
      ensures !Binds(lines[j..][i], key)
    {
      assert lines[j..][i] == lines[j + i];
    }
  }

  /** The loop's first turn: the first line, then the rest unless it stopped. */
  lemma LoadStep(env: Env, lines: seq<string>)
    requires |lines| > 0
    ensures ApplyLine(env, lines[0]).Aborted? ==> LoadLines(env, lines) == ApplyLine(env, lines[0])
    ensures ApplyLine(env, lines[0]).Continue? ==>
      LoadLines(env, lines) == LoadLines(ApplyLine(env, lines[0]).env, lines[1..])
  {
  }

  /** In a loaded file, the last line assigning a key decides its value. */
  lemma LoadEnvLastBinding(env: Env, text: string, j: nat, key: string, v: string)
    requires var lines := FileLines(text);
      && j < |lines| && ParseLine(lines[j]) == Some((key, v))
      && (forall i :: j < i < |lines| ==> !Binds(lines[i], key))
      && LoadLines(env, lines).Continue?
    ensures var lines := FileLines(text);
      Lookup(LoadEnv(env, Some(Readable(text))), key) == Some(Interpolate(LoadLines(env, lines[..j]).env, v))
  {
    var lines := FileLines(text);
    LoadEnvReadable(env, text);
    LaterLineWins(env, lines, j, key, v);
  }

  lemma LoadEnvReadable(env: Env, text: string)
    ensures LoadEnv(env, Some(Readable(text))) == LoadLines(env, FileLines(text)).env
  {
  }

  /** Loading two lines is applying the first, then, unless it aborted, the second. */
  lemma LoadTwo(env: Env, first: string, second: string)
    ensures ApplyLine(env, first).Aborted? ==> LoadLines(env, [first, second]) == ApplyLine(env, first)
    ensures ApplyLine(env, first).Continue? ==>
      LoadLines(env, [first, second]) == ApplyLine(ApplyLine(env, first).env, second)
  {
    var lines := [first, second];
    assert lines[0] == first && lines[1..] == [second];
    var p := ApplyLine(env, first);
    if p.Continue? {
      var rest := [second];
      assert rest[0] == second && rest[1..] == [];
      assert LoadLines(p.env, rest) == ApplyLine(p.env, second) by {
        var q := ApplyLine(p.env, second);
        if q.Continue? {
          assert LoadLines(q.env, rest[1..]) == q;
        }
      }
    }
  }

  /** A line defining `K` makes `${K}` in a later line's value read as `K`'s value,
      wherever the reference stands in that value, when `K`'s value and the text around
      the reference hold no `$`. */
  lemma EarlierLineVisible(env: Env, first: string, second: string, key: string, v: string,
                           name: string, a: string, b: string)
    requires AllNamesPlain(env) && Plain(key)
    requires ParseLine(first) == Some((key, v)) && '$' !in v && Storable(key, v)
    requires ParseLine(second) == Some((name, a + Ref(key) + b)) && '$' !in a && '$' !in b
    requires Storable(name, a + v + b)
    ensures LoadLines(env, [first, second]).Continue?
    ensures Lookup(LoadLines(env, [first, second]).env, name) == Some(a + v + b)
  {
    var e := Assign(env, key, v);
    assert ApplyLine(env, first) == Continue(e);
    AssignKeepsPlain(env, key, v);
    InterpolateRefIn(e, a, key, b, v);
    LoadTwo(env, first, second);
    assert ApplyLine(e, second) == Continue(Assign(e, name, a + v + b));
  }

  lemma AssignKeepsPlain(env: Env, key: string, value: string)
    requires AllNamesPlain(env) && Plain(key)
    ensures AllNamesPlain(Assign(env, key, value))
  {
    var r := Assign(env, key, value);
    forall i | 0 <= i < |r| ensures Plain(r[i].0) {
      if r[i].0 != key {
        var j :| 0 <= j < |env| && env[j] == r[i];
      }
    }
  }

  /** `${K}` alone expands to the value of `K` when that value holds no `$`. */
  lemma InterpolateRef(env: Env, key: string, v: string)
    requires Plain(key) && Lookup(env, key) == Some(v) && '$' !in v
    ensures Interpolate(env, Ref(key)) == v
  {
    PassOnRef(env, key, v);
    PassWithoutDollar(env, v);
  }

  lemma {:induction false} PassWithoutDollar(env: Env, s: string)
    requires '$' !in s
    ensures ReplacePass(env, s) == s
    decreases |env|
  {
    if |env| > 0 {
      assert Ref(env[0].0)[0] == '$';
      ReplaceAbsent(s, Ref(env[0].0), env[0].1);
      PassWithoutDollar(env[1..], s);
    }
  }

  /** One pass turns `${K}` into the value of `K`. */
  lemma {:induction false} PassOnRef(env: Env, key: string, v: string)
    requires Plain(key) && Lookup(env, key) == Some(v) && '$' !in v
    ensures ReplacePass(env, Ref(key)) == v
    decreases |env|
  {
    var r := Ref(key);
    var k0 := env[0].0;
    if k0 == key {
      assert r[..|r|] == r && r[|r|..] == [];
      assert ReplaceAll(r, r, env[0].1) == v;
      PassWithoutDollar(env[1..], v);
    } else {
      RefUntouched(key, k0, env[0].1);
      PassOnRef(env[1..], key, v);
    }
  }

  /** What an occurrence of `${name}` at `i` says about the characters of `s`. */
  lemma RefFacts(s: string, name: string, i: int)
    requires Plain(name) && OccursAt(Ref(name), s, i)
    ensures s[i] == '$' && s[i + |name| + 2] == '}' && s[i + 2..i + |name| + 2] == name
    ensures forall j :: i + 2 <= j < i + |name| + 2 ==> s[j] != '}'
    ensures forall j :: i < j < i + |name| + 3 ==> s[j] != '$'
  {
    var r := Ref(name);
    assert s[i..i + |r|] == r;
    assert forall j :: i <= j < i + |r| ==> s[j] == r[j - i];
    assert forall j :: 2 <= j < |r| - 1 ==> r[j] == name[j - 2];
    assert s[i + 2..i + |name| + 2] == r[2..|r| - 1];
  }

  /** A reference at the start of `s` to another plain name cannot overlap an
      occurrence of `${x}`: that occurrence starts after it. */
  lemma NoRefOverlap(s: string, x: string, k: string, i: int)
    requires Plain(x) && Plain(k) && x != k
    requires StartsWith(s, Ref(k)) && OccursAt(Ref(x), s, i)
    ensures i >= |Ref(k)|
  {
    assert OccursAt(Ref(k), s, 0);
    RefFacts(s, k, 0);
    RefFacts(s, x, i);
  }

  /** Inside `${name}` only the first character is a `$`. */
  lemma RefDollarOnlyFirst(name: string)
    requires Plain(name)
    ensures '$' !in Ref(name)[1..]
  {
    var r := Ref(name);
    assert OccursAt(r, r, 0);
    RefFacts(r, name, 0);
    assert forall j :: 0 <= j < |r| - 1 ==> r[1..][j] == r[j + 1];
  }

  /** Replacing `${other}` leaves `${name}` as it is. */
  lemma RefUntouched(name: string, other: string, value: string)
    requires Plain(name) && name != other
    ensures ReplaceAll(Ref(name), Ref(other), value) == Ref(name)
  {
    var r := Ref(name);
    var p := Ref(other);
    if |p| <= |r| {
      assert r[..|p|] != p by {
        RefNotPrefix(name, other);
      }
      RefDollarOnlyFirst(name);
      assert p[0] == '$';
      ReplaceAbsent(r[1..], p, value);
      assert [r[0]] + r[1..] == r;
    }
  }

  /** `${other}` is no prefix of `${name}` for a different name: the `}` closing it
      would fall inside the plain name or leave the two names equal. */
  lemma RefNotPrefix(name: string, other: string)
    requires Plain(name) && name != other && |Ref(other)| <= |Ref(name)|
    ensures Ref(name)[..|Ref(other)|] != Ref(other)
  {
    var r := Ref(name);
    var p := Ref(other);
    var m := |other|;
    assert p[m + 2] == '}' && forall j :: 0 <= j < m ==> p[j + 2] == other[j];
    assert forall j :: 0 <= j < |name| ==> r[j + 2] == name[j];
    if m < |name| {
      assert r[..|p|][m + 2] == name[m] != p[m + 2];
    } else {
      assert |name| == m;
      var j :| 0 <= j < m && name[j] != other[j];
      assert r[..|p|][j + 2] != p[j + 2];
    }
  }

  lemma OccursAfter(p: string, pre: string, rest: string, j: int)
    requires OccursAt(p, rest, j)
    ensures OccursAt(p, pre + rest, |pre| + j) && Occurs(p, pre + rest)
  {
    assert (pre + rest)[|pre| + j..|pre| + j + |p|] == rest[j..j + |p|];
    assert OccursAt(p, pre + rest, |pre| + j);
    assert 0 <= |pre| + j <= |pre + rest| - |p|;
  }

  /** `${x}` at the very start survives when `${k}` does not match there. */
  lemma RefAtStartSurvives(s: string, x: string, k: string, v: string)
    requires Plain(x) && Plain(k) && |s| >= |Ref(k)| && s[..|Ref(k)|] != Ref(k)
    requires OccursAt(Ref(x), s, 0)
    ensures Occurs(Ref(x), ReplaceAll(s, Ref(k), v))
  {
    var pat := Ref(k);
    var rx := Ref(x);
    var tail := s[1..];
    var n := |rx| - 1;
    assert tail[..n] == rx[1..];
    RefDollarOnlyFirst(x);
    ReplaceSkip(tail, pat, v, n);
    ReplaceNoMatch(s, pat, v);
    var out := ReplaceAll(s, pat, v);
    assert out == [s[0]] + tail[..n] + ReplaceAll(tail[n..], pat, v);
    assert [s[0]] + tail[..n] == rx;
    assert OccursAt(rx, out, 0);
  }

  /** An occurrence of `${x}` survives replacing `${k}` for another plain name `k`. */
  lemma {:induction false} RefSurvivesReplace(s: string, i: int, x: string, k: string, v: string)
    requires Plain(x) && Plain(k) && x != k
    requires OccursAt(Ref(x), s, i)
    ensures Occurs(Ref(x), ReplaceAll(s, Ref(k), v))
    decreases |s|
  {
    var pat := Ref(k);
    var rx := Ref(x);
    if |s| < |pat| {
      ReplaceShort(s, pat, v);
      assert OccursAt(rx, ReplaceAll(s, pat, v), i);
    } else if StartsWith(s, pat) {
      NoRefOverlap(s, x, k, i);
      var tail := s[|pat|..];
      SliceOfDrop(s, |pat|, i, |rx|);
      RefSurvivesReplace(tail, i - |pat|, x, k, v);
      var rest := ReplaceAll(tail, pat, v);
      ReplaceHit(s, pat, v);
      var j :| 0 <= j <= |rest| - |rx| && OccursAt(rx, rest, j);
      OccursAfter(rx, v, rest, j);
    } else if i == 0 {
      RefAtStartSurvives(s, x, k, v);
    } else {
      var tail := s[1..];
      SliceOfDrop(s, 1, i, |rx|);
      RefSurvivesReplace(tail, i - 1, x, k, v);
      var rest := ReplaceAll(tail, pat, v);
      ReplaceNoMatch(s, pat, v);
      var j :| 0 <= j <= |rest| - |rx| && OccursAt(rx, rest, j);
      OccursAfter(rx, [s[0]], rest, j);
    }
  }

  /** A reference to a name the environment does not hold survives a pass. */
  lemma {:induction false} UnsetRefSurvivesPass(env: Env, s: string, x: string)
    requires AllNamesPlain(env) && Plain(x) && Lookup(env, x).None?
    requires Occurs(Ref(x), s)
    ensures Occurs(Ref(x), ReplacePass(env, s))
    decreases |env|
  {
    if |env| > 0 {
      var i :| 0 <= i <= |s| - |Ref(x)| && OccursAt(Ref(x), s, i);
      assert env[0].0 != x;
      RefSurvivesReplace(s, i, x, env[0].0, env[0].1);
      assert AllNamesPlain(env[1..]) by {
        assert forall j :: 0 <= j < |env| - 1 ==> env[1..][j] == env[j + 1];
      }
      assert Lookup(env[1..], x).None? by {
        assert forall j :: 0 <= j < |env| - 1 ==> env[1..][j] == env[j + 1];
      }
      UnsetRefSurvivesPass(env[1..], ReplaceAll(s, Ref(env[0].0), env[0].1), x);
    }
  }

  /** `${X}` for a name the environment does not hold is kept literally in the stored
      value: there is no error and no empty default. */
  lemma UnsetRefKept(env: Env, value: string, x: string)
    requires AllNamesPlain(env) && Plain(x) && Lookup(env, x).None?
    requires Occurs(Ref(x), value)
    ensures Occurs(Ref(x), Interpolate(env, value))
  {
    var i :| 0 <= i <= |value| - |Ref(x)| && OccursAt(Ref(x), value, i);
    assert value[i] == Ref(x)[0] == '$';
    UnsetRefSurvivesPass(env, value, x);
    UnsetRefSurvivesPass(env, ReplacePass(env, value), x);
  }

  /** A value seen as a template: literal text and `${name}` references. */
  datatype Piece = Lit(text: string) | Var(name: string)

  function Show(p: Piece): string {
    match p
    case Lit(t) => t
    case Var(n) => Ref(n)
  }

  /** The text a template spells. */
  function Render(parts: seq<Piece>): string
    decreases |parts|
  {
    if |parts| == 0 then [] else Show(parts[0]) + Render(parts[1..])
  }

  /** A literal holds no `$` and a referenced name is plain. */
  predicate WellFormed(p: Piece) {
    match p
    case Lit(t) => '$' !in t
    case Var(n) => Plain(n)
  }

  /** Every `$` of the text is the start of one of the template's references. */
  predicate Template(parts: seq<Piece>) {
    forall i :: 0 <= i < |parts| ==> WellFormed(parts[i])
  }

  /** Every name the template references and `env` holds has a value without `$`. */
  predicate Settled(env: Env, parts: seq<Piece>) {
    forall i :: 0 <= i < |parts| ==> SettledPiece(env, parts[i])
  }

  predicate SettledPiece(env: Env, p: Piece) {
    p.Var? && Lookup(env, p.name).Some? ==> '$' !in Lookup(env, p.name).value
  }

  /** A reference to a name `env` holds becomes that name's value; anything else stays. */
  function Bind(env: Env, p: Piece): Piece {
    match p
    case Lit(_) => p
    case Var(n) => if Lookup(env, n).Some? then Lit(Lookup(env, n).value) else p
  }

  function Resolve(env: Env, parts: seq<Piece>): (r: seq<Piece>)
    ensures |r| == |parts| && forall i :: 0 <= i < |parts| ==> r[i] == Bind(env, parts[i])
    decreases |parts|
  {
    if |parts| == 0 then [] else [Bind(env, parts[0])] + Resolve(env, parts[1..])
  }

  /** Interpolating a template replaces each reference to a name the environment holds
      by that name's value and keeps references to names it does not hold, provided
      no referenced value brings in a `$` of its own. */
  lemma InterpolateTemplate(env: Env, parts: seq<Piece>)
    requires AllNamesPlain(env) && Template(parts) && Settled(env, parts)
    ensures Interpolate(env, Render(parts)) == Render(Resolve(env, parts))
  {
    PassTemplate(env, parts);
    if '$' in Render(parts) {
      var r := Resolve(env, parts);
      assert Template(r) && Settled(env, r);
      assert Resolve(env, r) == r;
      PassTemplate(env, r);
    } else {
      PassWithoutDollar(env, Render(parts));
    }
  }

  /** One pass over the environment resolves a template. */
  lemma {:induction false} PassTemplate(env: Env, parts: seq<Piece>)
    requires AllNamesPlain(env) && Template(parts) && Settled(env, parts)
    ensures ReplacePass(env, Render(parts)) == Render(Resolve(env, parts))
    decreases |env|
  {
    if |env| == 0 {
      assert Resolve(env, parts) == parts;
    } else {
      var k := env[0].0;
      var w := env[0].1;
      ReplaceRender(parts, k, w);
      StepResolve(env, parts);
      assert AllNamesPlain(env[1..]) by {
        assert forall j :: 0 <= j < |env| - 1 ==> env[1..][j] == env[j + 1];
      }
      PassTemplate(env[1..], Resolve([(k, w)], parts));
    }
  }

  /** Resolving by the first entry and then by the rest is resolving by all of `env`. */
  lemma StepResolve(env: Env, parts: seq<Piece>)
    requires |env| > 0 && Template(parts) && Settled(env, parts)
    ensures var once := Resolve([(env[0].0, env[0].1)], parts);
      && Template(once) && Settled(env[1..], once)
      && Resolve(env[1..], once) == Resolve(env, parts)
  {
    var one := [(env[0].0, env[0].1)];
    var once := Resolve(one, parts);
    forall i | 0 <= i < |parts|
      ensures WellFormed(once[i]) && Bind(env[1..], once[i]) == Bind(env, parts[i])
      ensures once[i].Var? ==> Lookup(env[1..], once[i].name) == Lookup(env, once[i].name)
    {
      if parts[i].Var? {
        assert Lookup(one, parts[i].name) == if parts[i].name == env[0].0 then Some(env[0].1) else None;
      }
    }
  }

  /** Replacing `${k}` in a template's text turns each reference to `k` into `w`. */
  lemma {:induction false} ReplaceRender(parts: seq<Piece>, k: string, w: string)
    requires Template(parts) && Plain(k)
    ensures ReplaceAll(Render(parts), Ref(k), w) == Render(Resolve([(k, w)], parts))
    decreases |parts|
  {
    if |parts| > 0 {
      var rest := Render(parts[1..]);
      assert Template(parts[1..]) by {
        assert forall i :: 0 <= i < |parts| - 1 ==> parts[1..][i] == parts[i + 1];
      }
      ReplaceRender(parts[1..], k, w);
      match parts[0]
      case Lit(t) =>
        assert Ref(k)[0] == '$';
        ReplacePrefix(t, rest, Ref(k), w);
      case Var(n) =>
        if n == k {
          ReplaceHit(Ref(k) + rest, Ref(k), w);
          assert (Ref(k) + rest)[|Ref(k)|..] == rest;
        } else {
          RefPrefixKept(n, k, rest, w);
        }
    }
  }

  /** A reference to another plain name at the front passes a replacement unchanged. */
  lemma RefPrefixKept(n: string, k: string, rest: string, w: string)
    requires Plain(n) && Plain(k) && n != k
    ensures ReplaceAll(Ref(n) + rest, Ref(k), w) == Ref(n) + ReplaceAll(rest, Ref(k), w)
  {
    var s := Ref(n) + rest;
    var rn := Ref(n);
    assert OccursAt(rn, s, 0) by {
      assert s[..|rn|] == rn;
    }
    if StartsWith(s, Ref(k)) {
      NoRefOverlap(s, n, k, 0);
    }
    ReplaceNoMatch(s, Ref(k), w);
    RefDollarOnlyFirst(n);
    assert s[1..] == rn[1..] + rest;
    ReplacePrefix(rn[1..], rest, Ref(k), w);
    assert [s[0]] + rn[1..] == rn;
    Assoc([s[0]], rn[1..], ReplaceAll(rest, Ref(k), w));
  }

  /** `${K}` inside a value, between texts without `$`, expands to the value of `K`. */
  lemma InterpolateRefIn(env: Env, a: string, key: string, b: string, v: string)
    requires AllNamesPlain(env) && Plain(key) && '$' !in a && '$' !in b
    requires Lookup(env, key) == Some(v) && '$' !in v
    ensures Interpolate(env, a + Ref(key) + b) == a + v + b
  {
    var parts := [Lit(a), Var(key), Lit(b)];
    RenderThree(Lit(a), Var(key), Lit(b));
    InterpolateTemplate(env, parts);
    RenderThree(Lit(a), Lit(v), Lit(b));
    var r := Resolve(env, parts);
    assert r[0] == Lit(a) && r[1] == Lit(v) && r[2] == Lit(b);
    assert r == [Lit(a), Lit(v), Lit(b)];
  }

  /** Two references in one value expand independently. */
  lemma InterpolateTwoRefs(env: Env, a: string, k1: string, m: string, k2: string, b: string, v1: string, v2: string)
    requires AllNamesPlain(env) && Plain(k1) && Plain(k2) && '$' !in a && '$' !in m && '$' !in b
    requires Lookup(env, k1) == Some(v1) && '$' !in v1
    requires Lookup(env, k2) == Some(v2) && '$' !in v2
    ensures Interpolate(env, a + Ref(k1) + m + Ref(k2) + b) == a + v1 + m + v2 + b
  {
    var parts := TwoRefParts(env, a, k1, m, k2, b, v1, v2);
    InterpolateTemplate(env, parts);
  }

  /** The template of a value with two references, and what it resolves to. */
  lemma TwoRefParts(env: Env, a: string, k1: string, m: string, k2: string, b: string, v1: string, v2: string)
    returns (parts: seq<Piece>)
    requires Plain(k1) && Plain(k2) && '$' !in a && '$' !in m && '$' !in b
    requires Lookup(env, k1) == Some(v1) && '$' !in v1
    requires Lookup(env, k2) == Some(v2) && '$' !in v2
    ensures Template(parts) && Settled(env, parts)
    ensures Render(parts) == a + Ref(k1) + m + Ref(k2) + b
    ensures Render(Resolve(env, parts)) == a + v1 + m + v2 + b
  {
    parts := [Lit(a), Var(k1), Lit(m), Var(k2), Lit(b)];
    FivePieces(env, Lit(a), Var(k1), Lit(m), Var(k2), Lit(b));
    RenderFive(Lit(a), Var(k1), Lit(m), Var(k2), Lit(b));
    var r := Resolve(env, parts);
    assert r[0] == Lit(a) && r[1] == Lit(v1) && r[2] == Lit(m) && r[3] == Lit(v2) && r[4] == Lit(b);
    assert r == [Lit(a), Lit(v1), Lit(m), Lit(v2), Lit(b)];
    RenderFive(Lit(a), Lit(v1), Lit(m), Lit(v2), Lit(b));
  }

  lemma FivePieces(env: Env, p: Piece, q: Piece, r: Piece, s: Piece, t: Piece)
    requires WellFormed(p) && WellFormed(q) && WellFormed(r) && WellFormed(s) && WellFormed(t)
    requires SettledPiece(env, p) && SettledPiece(env, q) && SettledPiece(env, r)
    requires SettledPiece(env, s) && SettledPiece(env, t)
    ensures Template([p, q, r, s, t]) && Settled(env, [p, q, r, s, t])
  {
  }

  lemma RenderThree(p: Piece, q: Piece, r: Piece)
    ensures Render([p, q, r]) == Show(p) + Show(q) + Show(r)
  {
    var parts := [p, q, r];
    assert parts[1..] == [q, r] && parts[1..][1..] == [r] && parts[1..][1..][1..] == [];
    assert Render([r]) == Show(r);
  }

  lemma RenderFive(p: Piece, q: Piece, r: Piece, s: Piece, t: Piece)
    ensures Render([p, q, r, s, t]) == Show(p) + Show(q) + Show(r) + Show(s) + Show(t)
  {
    assert [p, q, r, s, t] == [p, q] + [r, s, t];
    RenderTwoMore(p, q, [r, s, t]);
    RenderThree(r, s, t);
    Regroup(Show(p) + Show(q), Show(r), Show(s), Show(t));
  }

  /** Rendering two pieces in front of a template puts their text in front of its text. */
  lemma RenderTwoMore(p: Piece, q: Piece, rest: seq<Piece>)
    ensures Render([p, q] + rest) == Show(p) + Show(q) + Render(rest)
  {
    assert [p, q] + rest == [p] + ([q] + rest);
    RenderCons(p, [q] + rest);
    RenderCons(q, rest);
    Assoc(Show(p), Show(q), Render(rest));
  }

  lemma Regroup(a: string, x: string, y: string, z: string)
    ensures a + (x + y + z) == a + x + y + z
  {
  }

  lemma RenderCons(p: Piece, rest: seq<Piece>)
    ensures Render([p] + rest) == Show(p) + Render(rest)
  {
    assert ([p] + rest)[1..] == rest;
  }
}

=== FILE: file_queue.dfy ===
/** The file-system message queue between the Data Team reporter and the Code Team
    processor. The producer writes `disk_usage_<stamp>.json.tmp` into the directory named
    by `MQ_NEW_DIR` and renames it to `disk_usage_<stamp>.json`; the consumer takes the
    greatest `.json` name in its `new` directory, processes it, writes the result and
    moves the file into `archive` under the same name. */
module FileQueue {
  import opened Wrappers
  import opened Text
  import opened Numerals
  import opened Json
  import DataProcessor
  import ResourceReporter
  import EnvLoader

  /** The directory the consumer reads, as the path it passes to the processor. */
  const NewDir := "parallel_orchestration/mq/disk_usage/new"

  /** The environment variable naming the directory the producer publishes into. */
  const MqDirVar := "MQ_NEW_DIR"

  /** A directory: the files it holds, by name. */
  type Dir = map<string, Document>

  /** The consumer's view of the world: its `new` and `archive` directories and the
      contents of its output file (None before anything was written). */
  datatype Queue = Queue(incoming: Dir, archive: Dir, output: Option<string>)

  /** The consumer's filter: `f.endswith('.json')`. */
  predicate IsMessage(name: string) {
    EndsWith(name, ".json")
  }

  function Candidates(d: Dir): set<string> {
    set name | name in d && IsMessage(name)
  }

  /** The last element of `sorted(names)`: the greatest name in string order. */
  function Greatest(names: set<string>): (g: string)
    requires names != {}
    ensures g in names && forall n :: n in names ==> LexLeq(n, g)
  {
    GreatestExists(names);
    LexLeqAntisymmetricAll();
    var g :| g in names && forall n :: n in names ==> LexLeq(n, g);
    g
  }

  lemma GreatestExists(names: set<string>)
    requires names != {}
    ensures exists g :: g in names && forall n :: n in names ==> LexLeq(n, g)
  {
    var g := GreatestWitness(names);
  }

  /** A greatest name, found by taking one name out and comparing it with the greatest of
      the rest. */
  lemma GreatestWitness(names: set<string>) returns (g: string)
    requires names != {}
    ensures g in names && forall n :: n in names ==> LexLeq(n, g)
    decreases |names|
  {
    var x :| x in names;
    var rest := names - {x};
    if rest == {} {
      LexLeqReflexive(x);
      assert names == {x};
      g := x;
    } else {
      var h := GreatestWitness(rest);
      LexLeqTotal(x, h);
      if LexLeq(x, h) {
        g := h;
      } else {
        forall n | n in rest ensures LexLeq(n, x) {
          LexLeqTransitive(n, h, x);
        }
        LexLeqReflexive(x);
        g := x;
      }
    }
  }

  lemma LexLeqAntisymmetricAll()
    ensures forall a, b :: LexLeq(a, b) && LexLeq(b, a) ==> a == b
  {
    forall a, b | LexLeq(a, b) && LexLeq(b, a) ensures a == b {
      LexLeqAntisymmetric(a, b);
    }
  }

  /** A name that is at least every candidate is the one the consumer picks. */
  lemma GreatestUnique(names: set<string>, g: string)
    requires g in names && forall n :: n in names ==> LexLeq(n, g)
    ensures Greatest(names) == g
  {
    LexLeqAntisymmetric(Greatest(names), g);
  }

  /** Lines 66-72 over the listing `os.listdir` returned: the greatest `.json` name, found in
      one scan instead of by sorting. */
  method LatestMessage(d: Dir, listing: seq<string>) returns (latest: Option<string>)
    requires forall n :: n in listing <==> n in d
    ensures latest.None? <==> Candidates(d) == {}
    ensures latest.Some? ==> latest.value == Greatest(Candidates(d))
  {
    latest := None;
    for k := 0 to |listing|
      invariant latest.None? <==> forall i :: 0 <= i < k ==> !IsMessage(listing[i])
      invariant latest.Some? ==> IsMessage(latest.value) && latest.value in listing
      invariant latest.Some? ==> forall i :: 0 <= i < k && IsMessage(listing[i]) ==> LexLeq(listing[i], latest.value)
    {
      var name := listing[k];
      if IsMessage(name) {
        if latest.None? {
          LexLeqReflexive(name);
          latest := Some(name);
        } else if LexLeq(latest.value, name) {
          forall i | 0 <= i < k && IsMessage(listing[i]) ensures LexLeq(listing[i], name) {
            LexLeqTransitive(listing[i], latest.value, name);
          }
          LexLeqReflexive(name);
          latest := Some(name);
        } else {
          LexLeqTotal(latest.value, name);
        }
      }
    }
    if latest.None? {
      assert forall n :: n in listing ==> !IsMessage(n);
    } else {
      forall n | n in Candidates(d) ensures LexLeq(n, latest.value) {
        var i :| 0 <= i < |listing| && listing[i] == n;
      }
      GreatestUnique(Candidates(d), latest.value);
    }
  }

  /** One run of the consumer. */
  datatype Run =
    | NoMessages
    | Crashed(name: string)
    | Consumed(name: string, after: Queue)

  /** The consumer's `__main__` (lines 64-92). With no `.json` name it stops and nothing
      changes; otherwise it processes the greatest name and, unless processing raised,
      overwrites the output file with the result and moves the file into `archive`,
      whether the result is a summary or an error sentence. */
  function Consume(q: Queue, repr: Json -> string): (r: Run)
    ensures r.NoMessages? <==> Candidates(q.incoming) == {}
    ensures !r.NoMessages? ==> r.name in Candidates(q.incoming)
    ensures !r.NoMessages? ==> forall n :: n in Candidates(q.incoming) ==> LexLeq(n, r.name)
    ensures !r.NoMessages? ==>
      (r.Crashed? <==> DataProcessor.Process(Some(q.incoming[r.name])) == DataProcessor.Raised)
    ensures r.Consumed? ==>
      var outcome := DataProcessor.Process(Some(q.incoming[r.name]));
      r.after.output == DataProcessor.Message(NewDir + "/" + r.name, outcome, repr)
    ensures r.Consumed? ==>
      && r.after.output.Some?
      && r.after.incoming.Keys == q.incoming.Keys - {r.name}
      && r.name in r.after.archive && r.after.archive[r.name] == q.incoming[r.name]
  {
    var names := Candidates(q.incoming);
    if names == {} then NoMessages
    else
      var name := Greatest(names);
      var outcome := DataProcessor.Process(Some(q.incoming[name]));
      match DataProcessor.Message(NewDir + "/" + name, outcome, repr)
      case None => Crashed(name)
      case Some(text) =>
        Consumed(name, Queue(q.incoming - {name}, q.archive[name := q.incoming[name]], Some(text)))
  }

  /** Consuming touches no other file: every other name keeps its place and contents. */
  lemma ConsumeLeavesOthers(q: Queue, repr: Json -> string, n: string)
    requires Consume(q, repr).Consumed? && n != Consume(q, repr).name
    ensures var after := Consume(q, repr).after;
      && (n in after.incoming <==> n in q.incoming)
      && (n in q.incoming ==> after.incoming[n] == q.incoming[n])
      && (n in after.archive <==> n in q.archive)
      && (n in q.archive ==> after.archive[n] == q.archive[n])
  {
  }

  /** A message that is not JSON is archived all the same, and the output holds the
      invalid-JSON sentence. */
  lemma GarbledMessageArchived(q: Queue, repr: Json -> string)
    requires Candidates(q.incoming) != {} && q.incoming[Greatest(Candidates(q.incoming))] == Garbled
    ensures var r := Consume(q, repr);
      && r.Consumed?
      && r.name !in r.after.incoming
      && r.after.archive[r.name] == Garbled
      && r.after.output == Some(DataProcessor.InvalidJsonError(NewDir + "/" + r.name))
  {
  }

  /** After a run the consumed name is no longer a candidate and every other candidate is;
      a second run takes a name that sorts no later, so the queue is served newest first. */
  lemma ConsumeNewestFirst(q: Queue, repr: Json -> string)
    requires Consume(q, repr).Consumed?
    ensures var r := Consume(q, repr);
      && Candidates(r.after.incoming) == Candidates(q.incoming) - {r.name}
      && (Consume(r.after, repr).NoMessages? || LexLeq(Consume(r.after, repr).name, r.name))
  {
    var r := Consume(q, repr);
    assert Candidates(r.after.incoming) == Candidates(q.incoming) - {r.name};
  }

  /** The name the producer publishes under. */
  function MessageName(stamp: string): (name: string)
    ensures IsMessage(name)
  {
    "disk_usage_" + stamp + ".json"
  }

  /** The name the contents are first written under. */
  function TempName(name: string): (t: string)
    ensures !IsMessage(t) && t != name
  {
    var t := name + ".tmp";
    assert t[|t| - 4] == '.' && t[|t| - 1] == 'p';
    t
  }

  /** `os.rename(from, to)` within one directory: an existing `to` is replaced. */
  function Rename(d: Dir, from: string, to: string): (r: Dir)
    requires from in d
    ensures to in r && r[to] == d[from]
    ensures from != to ==> from !in r
    ensures forall n :: n != from && n != to ==> (n in r <==> n in d) && (n in d ==> r[n] == d[n])
  {
    (d - {from})[to := d[from]]
  }

  /** The result of the producer's `__main__` (lines 92-105). */
  datatype Publication =
    | NotConfigured
    | Published(dirPath: string, name: string, after: Dir)

  /** The producer's publish step: with `MQ_NEW_DIR` unset or empty it exits with status 1
      and writes nothing; otherwise it writes the report under the temporary name in that
      directory and renames it to the message name. `stamp` is the text of
      `strftime("%Y%m%d%H%M%S%f")`, and `d` the directory `MQ_NEW_DIR` names. */
  function Publish(env: EnvLoader.Env, stamp: string, report: ResourceReporter.Report, d: Dir): (p: Publication)
    ensures p.NotConfigured? <==> EnvLoader.Lookup(env, MqDirVar) in {None, Some("")}
    ensures p.Published? ==> Some(p.dirPath) == EnvLoader.Lookup(env, MqDirVar)
    ensures p.Published? ==> p.name == MessageName(stamp) && TempName(p.name) !in p.after
    ensures p.Published? ==> p.name in p.after && p.after[p.name] == Parsed(ResourceReporter.ToJson(report))
    ensures p.Published? ==> forall n :: n != p.name && n != TempName(p.name) ==>
      (n in p.after <==> n in d) && (n in d ==> p.after[n] == d[n])
  {
    match EnvLoader.Lookup(env, MqDirVar)
    case None => NotConfigured
    case Some(dir) =>
      if dir == "" then NotConfigured
      else
        var name := MessageName(stamp);
        var staged := WriteTemp(d, name, Parsed(ResourceReporter.ToJson(report)));
        Published(dir, name, Rename(staged, TempName(name), name))
  }

  /** Lines 101-103: the contents written under the temporary name. */
  function WriteTemp(d: Dir, name: string, doc: Document): (r: Dir)
    ensures TempName(name) in r && r[TempName(name)] == doc
  {
    d[TempName(name) := doc]
  }

  /** While the contents are being written under the temporary name, the consumer sees
      exactly the candidates it saw before. */
  lemma TempInvisible(d: Dir, name: string, doc: Document)
    ensures Candidates(WriteTemp(d, name, doc)) == Candidates(d)
  {
  }

  /** The rename makes exactly one new candidate visible: the message. */
  lemma PublishAddsOneCandidate(env: EnvLoader.Env, stamp: string, report: ResourceReporter.Report, d: Dir)
    requires Publish(env, stamp, report, d).Published?
    ensures Candidates(Publish(env, stamp, report, d).after) == Candidates(d) + {MessageName(stamp)}
  {
    var p := Publish(env, stamp, report, d);
    assert TempName(p.name) !in Candidates(d);
  }

  /** Stamps of one width order message names by time: string order on the names is
      numeric order on the stamps. */
  lemma MessageOrder(a: string, b: string)
    requires |a| == |b| && AllDigits(a) && AllDigits(b)
    ensures LexLeq(MessageName(a), MessageName(b)) <==> GroupsValue(a) <= GroupsValue(b)
  {
    var pre := "disk_usage_";
    assert MessageName(a) == pre + (a + ".json") && MessageName(b) == pre + (b + ".json");
    LexLeqCommonPrefix(pre, a + ".json", b + ".json");
    FixedWidthOrder(a, b);
    if a == b {
      LexLeqReflexive(a + ".json");
    } else {
      LexLeqSameWidthHeads(a, b, ".json", ".json");
    }
  }

  /** `name` is the message of a stamp of the same width as `stamp` and earlier. */
  ghost predicate OlderMessage(name: string, stamp: string) {
    AllDigits(stamp) && exists s :: name == MessageName(s) && |s| == |stamp| && AllDigits(s) && GroupsValue(s) < GroupsValue(stamp)
  }

  /** Publishing when every waiting message is older makes the new message the one the
      consumer picks. */
  lemma PublishedIsGreatest(env: EnvLoader.Env, stamp: string, report: ResourceReporter.Report, d: Dir)
    requires Publish(env, stamp, report, d).Published?
    requires forall n :: n in Candidates(d) ==> OlderMessage(n, stamp)
    ensures var after := Publish(env, stamp, report, d).after;
      Candidates(after) != {} && Greatest(Candidates(after)) == MessageName(stamp)
  {
    var names := Candidates(d);
    assert Candidates(Publish(env, stamp, report, d).after) == names + {MessageName(stamp)} by {
      PublishAddsOneCandidate(env, stamp, report, d);
    }
    NewestIsGreatest(names, stamp);
  }

  /** Among waiting messages that are all older, the new message is the greatest name. */
  lemma NewestIsGreatest(names: set<string>, stamp: string)
    requires forall n :: n in names ==> OlderMessage(n, stamp)
    ensures Greatest(names + {MessageName(stamp)}) == MessageName(stamp)
  {
    var name := MessageName(stamp);
    var all := names + {name};
    forall n | n in all ensures LexLeq(n, name) {
      if n == name {
        LexLeqReflexive(name);
      } else {
        var s :| n == MessageName(s) && |s| == |stamp| && AllDigits(s) && GroupsValue(s) < GroupsValue(stamp);
        MessageOrder(s, stamp);
      }
    }
    GreatestUnique(all, name);
  }

  /** Publishing into the consumer's directory when every waiting message is older: the
      next run of the consumer takes the new message and archives its contents. A success
      report yields the processor's summary; an error envelope yields the top-level-keys
      sentence and is archived all the same. */
  lemma PublishThenConsume(env: EnvLoader.Env, stamp: string, report: ResourceReporter.Report,
                           q: Queue, repr: Json -> string)
    requires Publish(env, stamp, report, q.incoming).Published?
    requires forall n :: n in Candidates(q.incoming) ==> OlderMessage(n, stamp)
    ensures var r := Consume(q.(incoming := Publish(env, stamp, report, q.incoming).after), repr);
      && r.Consumed? && r.name == MessageName(stamp)
      && r.after.archive[r.name] == Parsed(ResourceReporter.ToJson(report))
      && (report.Failed? ==> r.after.output == Some(DataProcessor.TopLevelError))
      && (report.Collected? ==> DataProcessor.Process(Some(r.after.archive[r.name])).Summary?)
  {
    var p := Publish(env, stamp, report, q.incoming);
    var q2 := q.(incoming := p.after);
    assert Candidates(q2.incoming) != {} && Greatest(Candidates(q2.incoming)) == MessageName(stamp) by {
      PublishedIsGreatest(env, stamp, report, q.incoming);
    }
    ConsumeReport(q2, MessageName(stamp), report, repr);
  }

  /** A run whose newest message is a report archives it; a success report yields the
      processor's summary and an error envelope the top-level-keys sentence. */
  lemma ConsumeReport(q: Queue, name: string, report: ResourceReporter.Report, repr: Json -> string)
    requires Candidates(q.incoming) != {} && Greatest(Candidates(q.incoming)) == name
    requires q.incoming[name] == Parsed(ResourceReporter.ToJson(report))
    ensures var r := Consume(q, repr);
      && r.Consumed? && r.name == name
      && r.after.archive[r.name] == Parsed(ResourceReporter.ToJson(report))
      && (report.Failed? ==> r.after.output == Some(DataProcessor.TopLevelError))
      && (report.Collected? ==> DataProcessor.Process(Some(r.after.archive[r.name])).Summary?)
  {
    var doc := Parsed(ResourceReporter.ToJson(report));
    var o := DataProcessor.Process(Some(doc));
    assert o == DataProcessor.Validate(ResourceReporter.ToJson(report));
    assert o.Summary? || o == DataProcessor.MissingTopLevelKeys by {
      ResourceReporter.ProcessorReadsReports(report);
    }
    var path := NewDir + "/" + name;
    if report.Failed? {
      assert o == DataProcessor.MissingTopLevelKeys by {
        ResourceReporter.ProcessorReadsReports(report);
      }
      assert DataProcessor.Message(path, o, repr) == Some(DataProcessor.TopLevelError);
    }
    ConsumeTakes(q, repr, name);
  }

  /** The run that takes `name` archives it and writes the processor's message. */
  lemma ConsumeTakes(q: Queue, repr: Json -> string, name: string)
    requires Candidates(q.incoming) != {} && Greatest(Candidates(q.incoming)) == name
    requires DataProcessor.Message(NewDir + "/" + name, DataProcessor.Process(Some(q.incoming[name])), repr).Some?
    ensures Consume(q, repr)
      == Consumed(name, Queue(q.incoming - {name}, q.archive[name := q.incoming[name]],
                              DataProcessor.Message(NewDir + "/" + name, DataProcessor.Process(Some(q.incoming[name])), repr)))
  {
  }
}

=== FILE: json.dfy ===
/** Parsed JSON values as `json.load` hands them to the scripts, with the few Python
    operations the scripts apply to them: `in`, `all(k in v for k in keys)` and `str()`. */
module Json {
  import opened Wrappers
  import opened Text
  import Numerals

  datatype Json =
    | JNull
    | JBool(b: bool)
    | JInt(i: int)
    | JFloat(x: real)
    | JStr(s: string)
    | JArr(items: seq<Json>)
    | JObj(fields: map<string, Json>)

  /** Values Python's `in` can search: dicts, lists and strings. */
  predicate Searchable(v: Json) {
    v.JObj? || v.JArr? || v.JStr?
  }

  /** Python's `key in v` for a string key: dict key membership, list element equality or
      substring; on a number, boolean or None it raises TypeError, modelled as None. */
  function Contains(v: Json, key: string): (r: Option<bool>)
    ensures r.None? <==> !Searchable(v)
  {
    match v
    case JObj(fields) => Some(key in fields)
    case JArr(items) => Some(JStr(key) in items)
    case JStr(s) => Some(Occurs(key, s))
    case _ => None
  }

  /** Python's short-circuiting `all(key in v for key in keys)`. */
  function ContainsAll(v: Json, keys: seq<string>): (r: Option<bool>)
    ensures r.None? <==> |keys| > 0 && !Searchable(v)
    ensures r == Some(true) <==> forall i :: 0 <= i < |keys| ==> Contains(v, keys[i]) == Some(true)
  {
    if |keys| == 0 then Some(true)
    else
      match Contains(v, keys[0])
      case None => None
      case Some(false) => Some(false)
      case Some(true) =>
        var r := ContainsAll(v, keys[1..]);
        assert forall i :: 1 <= i < |keys| ==> keys[i] == keys[1..][i - 1];
        r
  }

  /** Python's `str(v)`: strings as they are, integers in decimal, `True`, `False`, `None`;
      the text of floats, lists and dicts comes from `repr`. */
  function Show(v: Json, repr: Json -> string): string {
    match v
    case JStr(s) => s
    case JInt(n) => Numerals.IntToString(n)
    case JBool(b) => if b then "True" else "False"
    case JNull => "None"
    case _ => repr(v)
  }

  /** A JSON file as `json.load` sees it: text that is not JSON, a read that failed for
      another reason (the exception's text), or the parsed value. */
  datatype Document = Garbled | Unreadable(detail: string) | Parsed(value: Json)
}

=== FILE: monitoring_agent.dfy ===
/** The monitoring agent's two classifiers: `check_health_status` reads the health-check
    record and decides between an alert, stale data and OK; `analyze_latest_log` reads the
    structured log and ranks its insight as critical, warning or info. Times are integer
    microseconds, the resolution of Python's `datetime`. */
module MonitoringAgent {
  import opened Wrappers
  import opened Text
  import opened Json

  const MicrosPerSecond := 1_000_000
  const SecondsPerDay := 86400

  /** `timedelta(minutes=5)`, in microseconds. */
  const StaleAfter := 5 * 60 * MicrosPerSecond

  const Healthy := JStr("HEALTHY")
  const UnknownStatus := JStr("UNKNOWN")
  const NoInsight := JStr("No insight found.")

  /** Which message `check_health_status` prints. */
  datatype Health =
    | HealthFileMissing
    | HealthUnreadable
    | Alert(status: Json)
    | Stale(elapsed: int)
    | HealthOk(seconds: int)

  /** `dict.get(key, default)` on a dict. */
  function Get(fields: map<string, Json>, key: string, default: Json): (v: Json)
    ensures key in fields ==> v == fields[key]
    ensures key !in fields ==> v == default
  {
    if key in fields then fields[key] else default
  }

  /** `timedelta.seconds`: the whole seconds of a duration once whole days are taken out,
      days rounding down, so a negative duration reads as late on the day before. */
  function DeltaSeconds(elapsed: int): (s: int)
    ensures 0 <= s < SecondsPerDay
    ensures 0 <= elapsed < SecondsPerDay * MicrosPerSecond ==> s * MicrosPerSecond <= elapsed < (s + 1) * MicrosPerSecond
  {
    (elapsed / MicrosPerSecond) % SecondsPerDay
  }

  /** `check_health_status` at time `now`. `file` is None when the record does not exist;
      `parseTime` is `datetime.fromisoformat` (None where it raises, or where the result
      cannot be subtracted from the naive `now`). A status other than "HEALTHY", missing
      ones included, is an alert and the time is not looked at; otherwise the record is
      stale exactly when more than five minutes have passed. */
  function CheckHealth(now: int, file: Option<Document>, parseTime: string -> Option<int>): (h: Health)
    ensures h == HealthFileMissing <==> file.None?
    ensures h.Alert? <==>
      file.Some? && file.value.Parsed? && file.value.value.JObj?
      && Get(file.value.value.fields, "status", UnknownStatus) != Healthy
    ensures h.Alert? ==> h.status == Get(file.value.value.fields, "status", UnknownStatus)
    ensures h.Stale? || h.HealthOk? <==> TimedHealthy(file, parseTime)
    ensures h.Stale? ==> h.elapsed > StaleAfter
    ensures h.Stale? || h.HealthOk? ==>
      var last := parseTime(file.value.value.fields["last_processed_time"].s).value;
      (h.Stale? <==> now - last > StaleAfter) && (h.Stale? ==> h.elapsed == now - last)
  {
    match file
    case None => HealthFileMissing
    case Some(Garbled) => HealthUnreadable
    case Some(Unreadable(_)) => HealthUnreadable
    case Some(Parsed(record)) =>
      if !record.JObj? then HealthUnreadable
      else
        var status := Get(record.fields, "status", UnknownStatus);
        if status != Healthy then Alert(status)
        else if "last_processed_time" !in record.fields || !record.fields["last_processed_time"].JStr? then HealthUnreadable
        else
          match parseTime(record.fields["last_processed_time"].s)
          case None => HealthUnreadable
          case Some(last) =>
            var elapsed := now - last;
            if elapsed > StaleAfter then Stale(elapsed) else HealthOk(DeltaSeconds(elapsed))
  }

  /** The record is a healthy one whose last processing time can be read. */
  predicate TimedHealthy(file: Option<Document>, parseTime: string -> Option<int>) {
    && file.Some? && file.value.Parsed? && file.value.value.JObj?
    && var fields := file.value.value.fields;
       && Get(fields, "status", UnknownStatus) == Healthy
       && "last_processed_time" in fields && fields["last_processed_time"].JStr?
       && parseTime(fields["last_processed_time"].s).Some?
  }

  /** A healthy record with a readable time: stale when more than five minutes old,
      exactly five minutes is still OK, and a time in the future is never stale. */
  lemma StaleThreshold(now: int, record: map<string, Json>, t: string, last: int, parseTime: string -> Option<int>)
    requires Get(record, "status", UnknownStatus) == Healthy
    requires "last_processed_time" in record && record["last_processed_time"] == JStr(t)
    requires parseTime(t) == Some(last)
    ensures var h := CheckHealth(now, Some(Parsed(JObj(record))), parseTime);
      && (h.Stale? <==> now - last > StaleAfter)
      && (now - last == StaleAfter ==> h.HealthOk?)
      && (last >= now ==> h.HealthOk?)
      && (0 <= now - last <= StaleAfter ==> h.HealthOk? && h.seconds == (now - last) / MicrosPerSecond)
  {
  }

  /** A record without a status is an alert for "UNKNOWN", whatever its time. */
  lemma MissingStatusAlerts(now: int, record: map<string, Json>, parseTime: string -> Option<int>)
    requires "status" !in record
    ensures CheckHealth(now, Some(Parsed(JObj(record))), parseTime) == Alert(UnknownStatus)
  {
  }

  /** Which message `analyze_latest_log` prints; the insight is kept as read. */
  datatype Insight =
    | LogMissing
    | LogUnreadable
    | CriticalAlert(text: Json)
    | WarningAlert(text: Json)
    | InfoStatus(text: Json)

  /** `analyze_latest_log`: the insight (default "No insight found.") is critical if it
      contains "CRITICAL", else a warning if it contains "WARNING", else info. `in` on an
      insight that is a number, boolean or null raises and reads as unreadable. */
  function AnalyzeLog(file: Option<Document>): (r: Insight)
    ensures r == LogMissing <==> file.None?
    ensures r.CriticalAlert? || r.WarningAlert? || r.InfoStatus? ==>
      && file.Some? && file.value.Parsed? && file.value.value.JObj?
      && r.text == Get(file.value.value.fields, "actionable_insight", NoInsight)
    ensures r.CriticalAlert? <==>
      && file.Some? && file.value.Parsed? && file.value.value.JObj?
      && Contains(Get(file.value.value.fields, "actionable_insight", NoInsight), "CRITICAL") == Some(true)
    ensures r.WarningAlert? <==>
      && file.Some? && file.value.Parsed? && file.value.value.JObj?
      && var insight := Get(file.value.value.fields, "actionable_insight", NoInsight);
         Contains(insight, "CRITICAL") == Some(false) && Contains(insight, "WARNING") == Some(true)
    ensures r.InfoStatus? <==>
      && file.Some? && file.value.Parsed? && file.value.value.JObj?
      && var insight := Get(file.value.value.fields, "actionable_insight", NoInsight);
         Contains(insight, "CRITICAL") == Some(false) && Contains(insight, "WARNING") == Some(false)
  {
    match file
    case None => LogMissing
    case Some(Garbled) => LogUnreadable
    case Some(Unreadable(_)) => LogUnreadable
    case Some(Parsed(log)) =>
      if !log.JObj? then LogUnreadable
      else
        var insight := Get(log.fields, "actionable_insight", NoInsight);
        match Contains(insight, "CRITICAL")
        case None => LogUnreadable
        case Some(true) => CriticalAlert(insight)
        case Some(false) =>
          if Contains(insight, "WARNING") == Some(true) then WarningAlert(insight) else InfoStatus(insight)
  }

  /** The classification of a string insight, in priority order: CRITICAL wins over
      WARNING, and text with neither is info. */
  lemma InsightPriority(log: map<string, Json>, text: string)
    requires "actionable_insight" in log && log["actionable_insight"] == JStr(text)
    ensures var r := AnalyzeLog(Some(Parsed(JObj(log))));
      && (Occurs("CRITICAL", text) ==> r == CriticalAlert(JStr(text)))
      && (!Occurs("CRITICAL", text) && Occurs("WARNING", text) ==> r == WarningAlert(JStr(text)))
      && (!Occurs("CRITICAL", text) && !Occurs("WARNING", text) ==> r == InfoStatus(JStr(text)))
  {
  }

  /** A log without an insight reports the default sentence as info. */
  lemma MissingInsightIsInfo(log: map<string, Json>)
    requires "actionable_insight" !in log
    ensures AnalyzeLog(Some(Parsed(JObj(log)))) == InfoStatus(NoInsight)
  {
    DefaultInsightPlain();
  }

  /** The default sentence holds neither keyword. */
  lemma DefaultInsightPlain()
    ensures !Occurs("CRITICAL", NoInsight.s) && !Occurs("WARNING", NoInsight.s)
  {
    var text := NoInsight.s;
    assert forall i :: 0 <= i < |text| ==> text[i] != 'C' && text[i] != 'W';
    AbsentHead("CRITICAL", text);
    AbsentHead("WARNING", text);
  }
}

=== FILE: numerals.dfy ===
/** Python's `int(text)` for base-10 text, the decimal rendering `str(n)` of an integer,
    and the link between the order of fixed-width digit strings and their values. */
module Numerals {
  import opened Wrappers
  import opened Text

  predicate IsDigit(c: char) {
    '0' <= c <= '9'
  }

  predicate AllDigits(s: string) {
    forall i :: 0 <= i < |s| ==> IsDigit(s[i])
  }

  /** Digits and underscores only: the characters a digit-group body may hold. */
  predicate DigitsOrUnderscores(s: string) {
    forall i :: 0 <= i < |s| ==> IsDigit(s[i]) || s[i] == '_'
  }

  /** The body `int()` accepts after an optional sign: decimal digits, optionally
      separated by single underscores, starting and ending with a digit. */
  predicate DigitGroups(s: string) {
    && |s| >= 1
    && IsDigit(s[0]) && IsDigit(s[|s| - 1])
    && DigitsOrUnderscores(s)
    && (forall i :: 0 <= i < |s| - 1 ==> !(s[i] == '_' && s[i + 1] == '_'))
  }

  function DigitValue(c: char): (d: nat)
    requires IsDigit(c)
    ensures d < 10
  {
    (c as int) - ('0' as int)
  }

  function DigitChar(d: nat): (c: char)
    requires d < 10
    ensures IsDigit(c) && DigitValue(c) == d
  {
    ('0' as int + d) as char
  }

  /** The value of a digit-group body; underscores separate groups and carry no value. */
  function GroupsValue(s: string): nat
    requires DigitsOrUnderscores(s)
  {
    if s == [] then 0
    else if s[|s| - 1] == '_' then GroupsValue(s[..|s| - 1])
    else GroupsValue(s[..|s| - 1]) * 10 + DigitValue(s[|s| - 1])
  }

  /** `str(n)` for a natural number: the shortest decimal digits whose value is `n`. */
  function NatToString(n: nat): (s: string)
    ensures |s| >= 1 && AllDigits(s)
    ensures |s| > 1 ==> s[0] != '0'
    ensures GroupsValue(s) == n
  {
    if n < 10 then [DigitChar(n)]
    else
      var s := NatToString(n / 10) + [DigitChar(n % 10)];
      assert s[..|s| - 1] == NatToString(n / 10);
      s
  }

  /** `str(n)` for an integer. */
  function IntToString(n: int): (s: string)
    ensures |s| >= 1
    ensures n < 0 <==> s[0] == '-'
  {
    if n < 0 then "-" + NatToString(-n) else NatToString(n)
  }

  /** A character that can appear in text `int()` accepts, once whitespace is stripped. */
  predicate IntChar(c: char) {
    IsDigit(c) || c == '+' || c == '-' || c == '_'
  }

  /** Python's `int(text)`: surrounding whitespace is ignored, then an optional sign and a
      digit-group body; any other text raises ValueError, modelled as None. CPython first
      copies every ASCII character unchanged and turns each non-ASCII space into ' ', then
      strips only ASCII whitespace, so the whitespace `int()` ignores is `IntSpace`: the
      information separators U+001C..U+001F, which `str.isspace()` accepts, are rejected.
      (Only ASCII digits are modelled.) */
  function ParseInt(text: string): (r: Option<int>)
    ensures r.Some? ==> forall i :: 0 <= i < |text| ==> IntChar(text[i]) || IntSpace(text[i])
    ensures text != [] && AllDigits(text) ==> r == Some(GroupsValue(text))
  {
    var t := IntStrip(text);
    assert text != [] && AllDigits(text) ==> t == text by {
      if text != [] && AllDigits(text) {
        DigitsUnstripped(text);
      }
    }
    ParseStripped(t)
  }

  /** The whitespace CPython strips from ASCII text. */
  predicate AsciiSpace(c: char) {
    c == ' ' || '\t' <= c <= '\r'
  }

  /** The whitespace `int()` ignores around a number: ASCII whitespace, or a non-ASCII
      character `str.isspace()` accepts. */
  predicate IntSpace(c: char) {
    AsciiSpace(c) || ('\U{80}' <= c && IsSpace(c))
  }

  /** Drops the longest prefix of `IntSpace` characters. */
  function IntStripStart(s: string): (r: string)
    ensures |r| <= |s| && r == s[|s| - |r|..]
    ensures forall i :: 0 <= i < |s| - |r| ==> IntSpace(s[i])
    ensures r == [] || !IntSpace(r[0])
  {
    if |s| > 0 && IntSpace(s[0]) then
      var r := IntStripStart(s[1..]);
      assert forall i :: 1 <= i < |s| ==> s[i] == s[1..][i - 1];
      r
    else s
  }

  /** Drops the longest suffix of `IntSpace` characters. */
  function IntStripEnd(s: string): (r: string)
    ensures |r| <= |s| && r == s[..|r|]
    ensures forall i :: |r| <= i < |s| ==> IntSpace(s[i])
    ensures r == [] || !IntSpace(r[|r| - 1])
  {
    if |s| > 0 && IntSpace(s[|s| - 1]) then
      var r := IntStripEnd(s[..|s| - 1]);
      assert forall i :: |r| <= i < |s| - 1 ==> s[i] == s[..|s| - 1][i];
      r
    else s
  }

  /** What `int()` parses: `text` without its surrounding `IntSpace` characters. Every
      character left out is such a space. */
  function IntStrip(text: string): (r: string)
    ensures r == [] || (!IntSpace(r[0]) && !IntSpace(r[|r| - 1]))
    ensures forall i :: 0 <= i < |text| ==> IntSpace(text[i]) || text[i] in r
  {
    var t := IntStripStart(text);
    var r := IntStripEnd(t);
    StripCovers(text, t, r);
    r
  }

  /** Cutting a space-only prefix and then a space-only suffix keeps every other character. */
  lemma StripCovers(text: string, t: string, r: string)
    requires |t| <= |text| && t == text[|text| - |t|..]
    requires forall i :: 0 <= i < |text| - |t| ==> IntSpace(text[i])
    requires |r| <= |t| && r == t[..|r|]
    requires forall i :: |r| <= i < |t| ==> IntSpace(t[i])
    ensures forall i :: 0 <= i < |text| ==> IntSpace(text[i]) || text[i] in r
  {
    var k := |text| - |t|;
    forall i | 0 <= i < |text| ensures IntSpace(text[i]) || text[i] in r {
      if i >= k {
        assert text[i] == t[i - k];
        if i - k < |r| {
          assert t[i - k] == r[i - k];
        }
      }
    }
  }

  /** `int("\x1c12")` raises: U+001C is whitespace to `str.isspace()` but not to `int()`. */
  lemma SeparatorRejected()
    ensures ParseInt("\U{1C}12") == None
  {
    var s := "\U{1C}12";
    assert s[0] == '\U{1C}' && !IntChar(s[0]) && !IntSpace(s[0]);
  }

  /** A non-ASCII space beside it does not change that: `int("\xa0\x1c12")` raises too. */
  lemma SeparatorRejectedBesideNonAscii()
    ensures ParseInt("\U{A0}\U{1C}12") == None
  {
    var s := "\U{A0}\U{1C}12";
    assert s[1] == '\U{1C}' && !IntChar(s[1]) && !IntSpace(s[1]);
  }

  /** A non-ASCII space around the digits is ignored: `int("\xa012\u3000")` is 12. */
  lemma NonAsciiSpaceIgnored()
    ensures ParseInt("\U{A0}12\U{3000}") == Some(12)
  {
    var a, x, b := "\U{A0}", "12", "\U{3000}";
    assert IntSpace(a[0]) && IntSpace(b[0]);
    assert !IntSpace(x[0]) && !IntSpace(x[1]);
    assert a + x + b == "\U{A0}12\U{3000}";
    PaddedStrip(a, x, b);
    TwelveValue();
  }

  lemma TwelveValue()
    ensures ParseStripped("12") == Some(12)
  {
    assert "12"[..1] == "1" && "1"[..0] == [];
  }

  /** Whitespace padding `int()` ignores, around a rendered integer, reads back as it. */
  lemma ParseIntPadded(a: string, n: int, b: string)
    requires forall i :: 0 <= i < |a| ==> IntSpace(a[i])
    requires forall i :: 0 <= i < |b| ==> IntSpace(b[i])
    ensures ParseInt(a + IntToString(n) + b) == Some(n)
  {
    var s := IntToString(n);
    var text := a + s + b;
    RenderedEnds(n);
    PaddedStrip(a, s, b);
    StrippedOfIntToString(n);
  }

  /** `IntStrip` removes exactly the padding from around a text with unpadded ends. */
  lemma PaddedStrip(a: string, s: string, b: string)
    requires forall i :: 0 <= i < |a| ==> IntSpace(a[i])
    requires forall i :: 0 <= i < |b| ==> IntSpace(b[i])
    requires s != [] && !IntSpace(s[0]) && !IntSpace(s[|s| - 1])
    ensures IntStrip(a + s + b) == s
  {
    StripStartPadded(a, s + b);
    assert a + s + b == a + (s + b);
    StripEndPadded(s, b);
  }

  lemma {:induction false} StripStartPadded(a: string, x: string)
    requires forall i :: 0 <= i < |a| ==> IntSpace(a[i])
    requires x != [] && !IntSpace(x[0])
    ensures IntStripStart(a + x) == x
    decreases |a|
  {
    if a == [] {
      assert a + x == x;
    } else {
      assert (a + x)[0] == a[0] && (a + x)[1..] == a[1..] + x;
      StripStartPadded(a[1..], x);
    }
  }

  lemma {:induction false} StripEndPadded(x: string, b: string)
    requires forall i :: 0 <= i < |b| ==> IntSpace(b[i])
    requires x != [] && !IntSpace(x[|x| - 1])
    ensures IntStripEnd(x + b) == x
    decreases |b|
  {
    if b == [] {
      assert x + b == x;
    } else {
      var c := b[..|b| - 1];
      assert (x + b)[|x + b| - 1] == b[|b| - 1] && (x + b)[..|x + b| - 1] == x + c;
      StripEndPadded(x, c);
    }
  }

  /** A rendered integer starts with a sign or digit and ends with a digit. */
  lemma RenderedEnds(n: int)
    ensures var s := IntToString(n); !IntSpace(s[0]) && IsDigit(s[|s| - 1])
  {
    var s := IntToString(n);
    var d := NatToString(if n < 0 then -n else n);
    assert s[|s| - 1] == d[|d| - 1];
  }

  /** Digits are not whitespace, so stripping leaves a digit string alone. */
  lemma DigitsUnstripped(text: string)
    requires text != [] && AllDigits(text)
    ensures IntStrip(text) == text
  {
    PaddedStrip([], text, []);
    assert [] + text + [] == text;
  }

  /** `int()` on text already stripped of surrounding whitespace. */
  function ParseStripped(t: string): (r: Option<int>)
    ensures r.Some? ==> forall i :: 0 <= i < |t| ==> IntChar(t[i])
    ensures t != [] && AllDigits(t) ==> r == Some(GroupsValue(t))
  {
    if |t| > 0 && (t[0] == '+' || t[0] == '-') then
      if DigitGroups(t[1..]) then
        assert forall i :: 1 <= i < |t| ==> t[i] == t[1..][i - 1];
        var magnitude: int := GroupsValue(t[1..]);
        Some(if t[0] == '-' then -magnitude else magnitude)
      else None
    else if DigitGroups(t) then Some(GroupsValue(t))
    else None
  }

  /** `int(str(n)) == n`: reading back a rendered integer gives the integer. */
  lemma ParseIntOfIntToString(n: int)
    ensures ParseInt(IntToString(n)) == Some(n)
  {
    ParseIntPadded([], n, []);
    assert [] + IntToString(n) + [] == IntToString(n);
  }

  lemma StrippedOfIntToString(n: int)
    ensures ParseStripped(IntToString(n)) == Some(n)
  {
    var s := IntToString(n);
    var d := NatToString(if n < 0 then -n else n);
    if n < 0 {
      assert s[1..] == d;
    }
  }

  function Pow10(k: nat): (p: nat)
    ensures p >= 1
  {
    if k == 0 then 1 else 10 * Pow10(k - 1)
  }

  lemma {:induction false} DigitsValueBound(s: string)
    requires AllDigits(s)
    ensures GroupsValue(s) < Pow10(|s|)
    decreases |s|
  {
    if s != [] {
      DigitsValueBound(s[..|s| - 1]);
    }
  }

  /** The value of a digit string, read from its first digit. */
  lemma {:induction false} DigitsValueFront(s: string)
    requires |s| >= 1 && AllDigits(s)
    ensures GroupsValue(s) == DigitValue(s[0]) * Pow10(|s| - 1) + GroupsValue(s[1..])
    decreases |s|
  {
    var n := |s|;
    var last := DigitValue(s[n - 1]);
    assert GroupsValue(s) == GroupsValue(s[..n - 1]) * 10 + last;
    if n == 1 {
      assert s[..0] == [] && s[1..] == [];
    } else {
      var p := s[..n - 1];
      var q := s[1..];
      assert p[1..] == q[..n - 2];
      assert q[n - 2] == s[n - 1];
      DigitsValueFront(p);
      var head := DigitValue(s[0]);
      var mid := GroupsValue(p[1..]);
      assert GroupsValue(p) == head * Pow10(n - 2) + mid;
      assert GroupsValue(q) == mid * 10 + last;
      assert Pow10(n - 1) == 10 * Pow10(n - 2);
      ShiftPlace(head, Pow10(n - 2), mid, last);
    }
  }

  /** Appending a digit to a number written as a leading digit and a rest. */
  lemma ShiftPlace(head: int, p: int, mid: int, last: int)
    ensures (head * p + mid) * 10 + last == head * (10 * p) + (mid * 10 + last)
  {
  }

  /** For digit strings of equal width, string order is numeric order: this is why
      fixed-width timestamps sort chronologically by name. */
  lemma {:induction false} FixedWidthOrder(a: string, b: string)
    requires |a| == |b| && AllDigits(a) && AllDigits(b)
    ensures LexLeq(a, b) <==> GroupsValue(a) <= GroupsValue(b)
    decreases |a|
  {
    if |a| > 0 {
      var n := |a| - 1;
      DigitsValueFront(a);
      DigitsValueFront(b);
      DigitsValueBound(a[1..]);
      DigitsValueBound(b[1..]);
      if a[0] == b[0] {
        FixedWidthOrder(a[1..], b[1..]);
      } else {
        PlaceValueOrder(DigitValue(a[0]), DigitValue(b[0]), GroupsValue(a[1..]), GroupsValue(b[1..]), Pow10(n));
      }
    }
  }

  /** Comparing two numbers written with the same number of places: a differing leading
      digit decides. */
  lemma PlaceValueOrder(da: nat, db: nat, ra: nat, rb: nat, p: nat)
    requires ra < p && rb < p && da != db
    ensures da < db <==> da * p + ra <= db * p + rb
  {
    if da < db {
      MulMonotone(da + 1, db, p);
    } else {
      MulMonotone(db + 1, da, p);
    }
  }

  lemma MulMonotone(x: nat, y: nat, p: nat)
    requires x <= y
    ensures x * p <= y * p
  {
  }
}

=== FILE: resource_reporter.dfy ===
/** The Data Team reporter: `get_disk_usage` reads the second line of `df -h /`,
    and `generate_report` wraps the result in a success or an error envelope. */
module ResourceReporter {
  import opened Wrappers
  import opened Text
  import opened Numerals
  import opened Json
  import DataProcessor

  const TeamId := "Data Team"
  const ResourceType := "Disk Usage"
  const FailureMessage := "Failed to collect disk usage metrics."

  /** The `metrics` dict of `get_disk_usage`. The three sizes are what the size conversion
      (`parse_size_to_gb` followed by `round(_, 1)`) produced from the size fields. */
  datatype DiskMetrics = DiskMetrics(filesystem: string, sizeGb: real, usedGb: real, availableGb: real, usagePercent: int)

  /** The two dicts `generate_report` can return. */
  datatype Report = Failed(timestamp: string) | Collected(timestamp: string, metrics: DiskMetrics)

  /** `int(field.replace('%', ''))`, None where `int` raises. */
  function PercentValue(field: string): Option<int> {
    ParseInt(ReplaceAll(field, "%", ""))
  }

  /** A percentage as `df` prints it reads back as its value. */
  lemma PercentValueOfDf(p: nat)
    ensures PercentValue(NatToString(p) + "%") == Some(p)
  {
    var digits := NatToString(p);
    var field := digits + "%";
    assert field[..|digits|] == digits && field[|digits|..] == "%";
    assert '%' !in digits by { assert forall i :: 0 <= i < |digits| ==> IsDigit(digits[i]); }
    ReplaceSkip(field, "%", "", |digits|);
    assert ReplaceAll("%", "%", "") == "" + ReplaceAll("", "%", "");
    assert digits + "" == digits;
  }

  /** `get_disk_usage` on the standard output of `df -h /` (None when the command failed).
      `toGb` is the size conversion, None where it raises; any failure yields None. */
  function DiskUsage(stdout: Option<string>, toGb: string -> Option<real>): (m: Option<DiskMetrics>)
    ensures m.Some? ==> stdout.Some? && '\n' in Trim(stdout.value)
    ensures m.Some? ==>
      var f := Fields(SplitOn(Trim(stdout.value), '\n')[1]);
      && |f| >= 5
      && m.value.filesystem == f[0]
      && Some(m.value.usagePercent) == PercentValue(f[4])
      && Some(m.value.sizeGb) == toGb(f[1])
      && Some(m.value.usedGb) == toGb(f[2])
      && Some(m.value.availableGb) == toGb(f[3])
  {
    if stdout.None? then None
    else
      var lines := SplitOn(Trim(stdout.value), '\n');
      if |lines| < 2 then None
      else
        var fields := Fields(lines[1]);
        if |fields| < 5 then None
        else
          match (toGb(fields[1]), toGb(fields[2]), toGb(fields[3]), PercentValue(fields[4]))
          case (Some(size), Some(used), Some(available), Some(percent)) =>
            Some(DiskMetrics(fields[0], size, used, available, percent))
          case _ => None
  }

  /** Reading a `df` output, with any whitespace around it, whose second line splits into
      the filesystem, three sizes, a percentage as `df` prints it and further fields,
      gives back exactly those values. */
  lemma DiskUsageOfDfOutput(lead: string, header: string, line: string, trail: string,
                            fields: seq<string>, percent: nat,
                            toGb: string -> Option<real>, s: real, u: real, a: real)
    requires AllSpace(lead) && AllSpace(trail)
    requires header != [] && !IsSpace(header[0]) && '\n' !in header
    requires line != [] && !IsSpace(line[|line| - 1]) && '\n' !in line
    requires Fields(line) == fields && |fields| >= 5 && fields[4] == NatToString(percent) + "%"
    requires toGb(fields[1]) == Some(s) && toGb(fields[2]) == Some(u) && toGb(fields[3]) == Some(a)
    ensures DiskUsage(Some(lead + header + "\n" + line + trail), toGb) == Some(DiskMetrics(fields[0], s, u, a, percent))
  {
    DfPadded(lead + header + "\n" + line + trail, lead, header, line, trail, fields, percent, toGb, s, u, a);
  }

  lemma DfPadded(out: string, lead: string, header: string, line: string, trail: string,
                 fields: seq<string>, percent: nat,
                 toGb: string -> Option<real>, s: real, u: real, a: real)
    requires out == lead + header + "\n" + line + trail && AllSpace(lead) && AllSpace(trail)
    requires header != [] && !IsSpace(header[0]) && '\n' !in header
    requires line != [] && !IsSpace(line[|line| - 1]) && '\n' !in line
    requires Fields(line) == fields && |fields| >= 5 && fields[4] == NatToString(percent) + "%"
    requires toGb(fields[1]) == Some(s) && toGb(fields[2]) == Some(u) && toGb(fields[3]) == Some(a)
    ensures DiskUsage(Some(out), toGb) == Some(DiskMetrics(fields[0], s, u, a, percent))
  {
    var x := header + "\n" + line;
    assert x[0] == header[0] && x[|x| - 1] == line[|line| - 1];
    Group(lead, header, "\n", line, trail);
    PaddedOutput(out, lead, x, trail);
    DfReads(out, header, line, fields, percent, toGb, s, u, a);
  }

  lemma Group(a: string, b: string, c: string, d: string, e: string)
    ensures a + b + c + d + e == a + (b + c + d) + e
  {
  }

  lemma PaddedOutput(out: string, lead: string, x: string, trail: string)
    requires out == lead + x + trail && AllSpace(lead) && AllSpace(trail) && Trimmed(x)
    ensures Trim(out) == x
  {
    TrimPadded(lead, x, trail);
  }

  /** Output that strips to a header line and a data line is read from the data line. */
  lemma DfReads(out: string, header: string, line: string, fields: seq<string>, percent: nat,
                toGb: string -> Option<real>, s: real, u: real, a: real)
    requires Trim(out) == header + "\n" + line && '\n' !in header && '\n' !in line
    requires Fields(line) == fields && |fields| >= 5 && fields[4] == NatToString(percent) + "%"
    requires toGb(fields[1]) == Some(s) && toGb(fields[2]) == Some(u) && toGb(fields[3]) == Some(a)
    ensures DiskUsage(Some(out), toGb) == Some(DiskMetrics(fields[0], s, u, a, percent))
  {
    SplitOnFirst(header, line, '\n');
    PercentValueOfDf(percent);
    DiskUsageOfLine(out, line, fields, toGb, DiskMetrics(fields[0], s, u, a, percent));
  }

  /** The same for a second line laid out as `df` lays it out: the fields in columns
      separated by runs of blanks. */
  lemma DiskUsageOfColumns(header: string, fields: seq<string>, gaps: seq<string>, percent: nat,
                           toGb: string -> Option<real>, s: real, u: real, a: real)
    requires header != [] && !IsSpace(header[0]) && '\n' !in header
    requires |fields| >= 5 && Tokens(fields) && fields[4] == NatToString(percent) + "%"
    requires |gaps| == |fields| - 1 && Gaps(gaps) && forall i :: 0 <= i < |gaps| ==> '\n' !in gaps[i]
    requires toGb(fields[1]) == Some(s) && toGb(fields[2]) == Some(u) && toGb(fields[3]) == Some(a)
    ensures DiskUsage(Some(header + "\n" + Spread(fields, gaps) + "\n"), toGb) == Some(DiskMetrics(fields[0], s, u, a, percent))
  {
    var line := Spread(fields, gaps);
    var m := DiskMetrics(fields[0], s, u, a, percent);
    assert DiskUsage(Some(header + "\n" + line + "\n"), toGb) == Some(m) by {
      ColumnsLine(fields, gaps);
      NoLead(header, "\n", line, "\n");
      DfPadded(header + "\n" + line + "\n", [], header, line, "\n", fields, percent, toGb, s, u, a);
    }
  }

  lemma NoLead(b: string, c: string, d: string, e: string)
    ensures [] + b + c + d + e == b + c + d + e
  {
  }

  /** A line of columns splits back into its fields, ends with the last one and has no newline. */
  lemma ColumnsLine(fields: seq<string>, gaps: seq<string>)
    requires |fields| >= 1 && Tokens(fields)
    requires |gaps| == |fields| - 1 && Gaps(gaps) && forall i :: 0 <= i < |gaps| ==> '\n' !in gaps[i]
    ensures var line := Spread(fields, gaps);
      && Fields(line) == fields
      && line != [] && !IsSpace(line[|line| - 1]) && '\n' !in line
  {
    FieldsOfSpread(fields, gaps);
    SpreadEnds(fields, gaps);
  }

  /** `get_disk_usage` reads its values from the fields of the second line. */
  lemma DiskUsageOfLine(out: string, line: string, fields: seq<string>, toGb: string -> Option<real>, m: DiskMetrics)
    requires |SplitOn(Trim(out), '\n')| >= 2 && SplitOn(Trim(out), '\n')[1] == line
    requires Fields(line) == fields && |fields| >= 5 && fields[0] == m.filesystem
    requires toGb(fields[1]) == Some(m.sizeGb) && toGb(fields[2]) == Some(m.usedGb) && toGb(fields[3]) == Some(m.availableGb)
    requires PercentValue(fields[4]) == Some(m.usagePercent)
    ensures DiskUsage(Some(out), toGb) == Some(m)
  {
  }

  /** A spread-out line ends with its last field and holds no newline. */
  lemma {:induction false} SpreadEnds(fs: seq<string>, gaps: seq<string>)
    requires |fs| >= 1 && |gaps| == |fs| - 1 && Tokens(fs)
    requires forall i :: 0 <= i < |gaps| ==> '\n' !in gaps[i]
    ensures var line := Spread(fs, gaps);
      line != [] && !IsSpace(line[|line| - 1]) && '\n' !in line
    decreases |fs|
  {
    var last := fs[|fs| - 1];
    assert last != [] && NoSpace(last);
    if |fs| > 1 {
      assert Tokens(fs[1..]) by {
        assert forall i :: 0 <= i < |fs| - 1 ==> fs[1..][i] == fs[i + 1];
      }
      assert forall i :: 0 <= i < |gaps| - 1 ==> gaps[1..][i] == gaps[i + 1];
      SpreadEnds(fs[1..], gaps[1..]);
      var rest := Spread(fs[1..], gaps[1..]);
      assert '\n' !in fs[0] by {
        assert forall i :: 0 <= i < |fs[0]| ==> !IsSpace(fs[0][i]);
      }
      NoNewlineConcat(fs[0], gaps[0], rest);
    } else {
      assert forall i :: 0 <= i < |last| ==> !IsSpace(last[i]);
    }
  }

  lemma NoNewlineConcat(a: string, b: string, c: string)
    requires '\n' !in a && '\n' !in b && '\n' !in c && c != []
    ensures var s := a + b + c; '\n' !in s && s[|s| - 1] == c[|c| - 1]
  {
    var s := a + b + c;
    forall i | 0 <= i < |s| ensures s[i] != '\n' {
      if i < |a| {
        assert s[i] == a[i];
      } else if i < |a| + |b| {
        assert s[i] == b[i - |a|];
      } else {
        assert s[i] == c[i - |a| - |b|];
      }
    }
  }

  /** Splitting `a + [sep] + b` when `a` and `b` are free of the separator. */
  lemma SplitOnFirst(a: string, b: string, sep: char)
    requires sep !in a && sep !in b
    ensures SplitOn(a + [sep] + b, sep) == [a, b]
  {
    var s := a + [sep] + b;
    var i := FirstIndex(s, sep);
    assert forall j :: 0 <= j < |a| ==> s[j] == a[j];
    assert i == |a|;
    assert s[..i] == a && s[i + 1..] == b;
  }

  /** `generate_report`: the error envelope when collection failed, otherwise the metrics. */
  function GenerateReport(now: string, stdout: Option<string>, toGb: string -> Option<real>): (r: Report)
    ensures r.Failed? <==> DiskUsage(stdout, toGb).None?
    ensures r.timestamp == now
    ensures r.Collected? ==> r.metrics == DiskUsage(stdout, toGb).value
  {
    match DiskUsage(stdout, toGb)
    case None => Failed(now)
    case Some(metrics) => Collected(now, metrics)
  }

  function MetricsJson(m: DiskMetrics): Json {
    JObj(map[
      "filesystem" := JStr(m.filesystem),
      "size_gb" := JFloat(m.sizeGb),
      "used_gb" := JFloat(m.usedGb),
      "available_gb" := JFloat(m.availableGb),
      "usage_percent" := JInt(m.usagePercent)])
  }

  /** The report as the JSON document `json.dump` writes. An error envelope carries a
      status and a message but neither `resource_type` nor `metrics`; a success envelope
      has exactly the timestamp, the team, the resource type and the metrics, and the
      metrics object has exactly the five values `df` gave. */
  function ToJson(r: Report): (j: Json)
    ensures j.JObj? && "timestamp" in j.fields && "team_id" in j.fields
    ensures j.fields["timestamp"] == JStr(r.timestamp) && j.fields["team_id"] == JStr(TeamId)
    ensures r.Failed? ==> j.fields.Keys == {"timestamp", "team_id", "status", "message"}
                          && j.fields["status"] == JStr("ERROR") && j.fields["message"] == JStr(FailureMessage)
    ensures r.Collected? ==> j.fields.Keys == {"timestamp", "team_id", "resource_type", "metrics"}
                             && j.fields["resource_type"] == JStr(ResourceType)
    ensures r.Collected? ==>
      && j.fields["metrics"].JObj?
      && j.fields["metrics"].fields.Keys == {"filesystem", "size_gb", "used_gb", "available_gb", "usage_percent"}
      && j.fields["metrics"].fields["filesystem"] == JStr(r.metrics.filesystem)
      && j.fields["metrics"].fields["size_gb"] == JFloat(r.metrics.sizeGb)
      && j.fields["metrics"].fields["used_gb"] == JFloat(r.metrics.usedGb)
      && j.fields["metrics"].fields["available_gb"] == JFloat(r.metrics.availableGb)
      && j.fields["metrics"].fields["usage_percent"] == JInt(r.metrics.usagePercent)
  {
    match r
    case Failed(t) =>
      JObj(map["timestamp" := JStr(t), "team_id" := JStr(TeamId), "status" := JStr("ERROR"), "message" := JStr(FailureMessage)])
    case Collected(t, m) =>
      JObj(map["timestamp" := JStr(t), "team_id" := JStr(TeamId), "resource_type" := JStr(ResourceType), "metrics" := MetricsJson(m)])
  }

  /** The processor accepts every success envelope and reads back its values; it rejects
      every error envelope with the top-level-keys error. */
  lemma ProcessorReadsReports(r: Report)
    ensures r.Failed? ==> DataProcessor.Validate(ToJson(r)) == DataProcessor.MissingTopLevelKeys
    ensures r.Collected? ==>
      DataProcessor.Validate(ToJson(r)) ==
        DataProcessor.Summary(JStr(TeamId), JStr(r.timestamp), JStr(ResourceType),
                              JInt(r.metrics.usagePercent), JFloat(r.metrics.sizeGb), JFloat(r.metrics.usedGb))
  {
    var j := ToJson(r);
    if r.Failed? {
      assert "resource_type" !in j.fields;
    } else {
      assert DataProcessor.WellFormedReport(j);
    }
  }
}

=== FILE: text.dfy ===
/** The Python `str` operations the scripts rely on, over `string` (a `seq<char>`):
    whitespace and `strip()`, `startswith`/`endswith`/`in`, `split(sep)`, `split()`,
    `splitlines()` and file-line iteration, `replace`, and string ordering. */
module Text {

  /** Python's `str.isspace()` for one character: the set `strip()` and `split()` remove. */
  predicate IsSpace(c: char) {
    || ('\t' <= c <= '\r')
    || ('\U{1C}' <= c <= ' ')
    || c == '\U{85}' || c == '\U{A0}' || c == '\U{1680}'
    || ('\U{2000}' <= c <= '\U{200A}')
    || c == '\U{2028}' || c == '\U{2029}' || c == '\U{202F}' || c == '\U{205F}' || c == '\U{3000}'
  }

  predicate NoSpace(s: string) {
    forall i :: 0 <= i < |s| ==> !IsSpace(s[i])
  }

  predicate AllSpace(s: string) {
    forall i :: 0 <= i < |s| ==> IsSpace(s[i])
  }

  /** Neither end of `s` is whitespace, so `strip()` leaves it alone. */
  predicate Trimmed(s: string) {
    s == [] || (!IsSpace(s[0]) && !IsSpace(s[|s| - 1]))
  }

  /** `s.lstrip()`: drops the longest all-whitespace prefix. */
  function TrimStart(s: string): (r: string)
    ensures |r| <= |s| && r == s[|s| - |r|..]
    ensures AllSpace(s[..|s| - |r|])
    ensures r == [] || !IsSpace(r[0])
  {
    if |s| > 0 && IsSpace(s[0]) then
      var r := TrimStart(s[1..]);
      TrimStartStep(s, r);
      r
    else s
  }

  /** One step of `lstrip()`: a leading space joins the stripped prefix of the rest. */
  lemma TrimStartStep(s: string, r: string)
    requires |s| > 0 && IsSpace(s[0]) && |r| <= |s| - 1
    requires r == s[1..][|s| - 1 - |r|..] && AllSpace(s[1..][..|s| - 1 - |r|])
    ensures r == s[|s| - |r|..] && AllSpace(s[..|s| - |r|])
  {
    assert s[..|s| - |r|] == [s[0]] + s[1..][..|s| - 1 - |r|];
    AllSpaceCons(s[0], s[1..][..|s| - 1 - |r|]);
  }

  /** A whitespace character in front of whitespace is whitespace. */
  lemma AllSpaceCons(c: char, t: string)
    requires IsSpace(c) && AllSpace(t)
    ensures AllSpace([c] + t)
  {
    assert forall i :: 1 <= i < |[c] + t| ==> ([c] + t)[i] == t[i - 1];
  }

  /** `s.rstrip()`: drops the longest all-whitespace suffix. */
  function TrimEnd(s: string): (r: string)
    ensures |r| <= |s| && r == s[..|r|]
    ensures AllSpace(s[|r|..])
    ensures r == [] || !IsSpace(r[|r| - 1])
  {
    if |s| > 0 && IsSpace(s[|s| - 1]) then
      var r := TrimEnd(s[..|s| - 1]);
      TrimEndStep(s, r);
      r
    else s
  }

  /** One step of `rstrip()`: a trailing space joins the stripped suffix of the rest. */
  lemma TrimEndStep(s: string, r: string)
    requires |s| > 0 && IsSpace(s[|s| - 1]) && |r| <= |s| - 1
    requires r == s[..|s| - 1][..|r|] && AllSpace(s[..|s| - 1][|r|..])
    ensures r == s[..|r|] && AllSpace(s[|r|..])
  {
    assert s[|r|..] == s[..|s| - 1][|r|..] + [s[|s| - 1]];
  }

  /** Python's `s.strip()`: `s` without its leading and trailing whitespace. */
  function Trim(s: string): (r: string)
    ensures Trimmed(r)
    ensures |r| <= |s|
  {
    TrimEnd(TrimStart(s))
  }

  /** What `strip()` keeps is a piece of `s`, starting at `k`. */
  lemma TrimShape(s: string) returns (k: nat)
    ensures k + |Trim(s)| <= |s| && Trim(s) == s[k..k + |Trim(s)|]
  {
    var t := TrimStart(s);
    var r := TrimEnd(t);
    assert Trim(s) == r;
    k := |s| - |t|;
    assert r == t[..|r|] && t == s[k..];
    SliceOfSuffix(s, k, |r|);
  }

  /** The first `m` characters of the suffix from `k` are the slice from `k` to `k + m`. */
  lemma SliceOfSuffix(s: string, k: nat, m: nat)
    requires k + m <= |s|
    ensures s[k..][..m] == s[k..k + m]
  {
  }

  /** `strip()` changes nothing on a string with no whitespace at either end. */
  lemma TrimTrimmed(s: string)
    requires Trimmed(s)
    ensures Trim(s) == s
  {
  }

  /** `strip()` yields the empty string exactly for all-whitespace input. */
  lemma TrimEmpty(s: string)
    ensures Trim(s) == [] <==> AllSpace(s)
  {
    var t := TrimStart(s);
    var k := |s| - |t|;
    if Trim(s) == [] {
      assert t == [] by { assert AllSpace(t[0..]); }
      assert s[..k] == s;
    }
  }

  /** Concatenation regrouped to the right. */
  lemma Assoc(a: string, b: string, c: string)
    ensures a + b + c == a + (b + c)
  {
  }

  /** `strip()` removes exactly whitespace padding around a text that is already trimmed. */
  lemma TrimPadded(a: string, x: string, b: string)
    requires AllSpace(a) && AllSpace(b) && Trimmed(x)
    ensures Trim(a + x + b) == x
  {
    if x == [] {
      assert a + x + b == a + b;
      AllSpaceConcat(a, b);
      TrimEmpty(a + b);
    } else {
      assert a + x + b == a + (x + b);
      TrimStartSpaces(a, x + b);
      TrimEndSpaces(x, b);
    }
  }

  /** Trailing whitespace alone is stripped from a trimmed text. */
  lemma TrimTrailing(x: string, b: string)
    requires AllSpace(b) && Trimmed(x)
    ensures Trim(x + b) == x
  {
    TrimPadded([], x, b);
    assert [] + x + b == x + b;
  }

  /** A sequence is what comes before index `j`, the element at `j`, and what follows. */
  lemma SplitAround<T>(s: seq<T>, j: nat)
    requires j < |s|
    ensures s == s[..j] + ([s[j]] + s[j + 1..])
  {
    assert s[j..] == [s[j]] + s[j + 1..];
    assert s == s[..j] + s[j..];
  }

  /** A slice of the suffix from `d` is the slice of `s` shifted by `d`. */
  lemma SliceOfDrop(s: string, d: nat, i: int, m: nat)
    requires d <= i && i + m <= |s|
    ensures s[d..][i - d..i - d + m] == s[i..i + m]
  {
  }

  /** Equal texts strip alike. */
  lemma TrimSameText(a: string, b: string)
    requires a == b
    ensures Trim(a) == Trim(b)
  {
  }

  lemma AllSpaceConcat(a: string, b: string)
    requires AllSpace(a) && AllSpace(b)
    ensures AllSpace(a + b)
  {
    assert forall i :: |a| <= i < |a + b| ==> (a + b)[i] == b[i - |a|];
  }

  /** `lstrip()` of whitespace in front of a text starting with a non-space. */
  lemma {:induction false} TrimStartSpaces(a: string, y: string)
    requires AllSpace(a) && y != [] && !IsSpace(y[0])
    ensures TrimStart(a + y) == y
    decreases |a|
  {
    if a == [] {
      assert a + y == y;
    } else {
      assert (a + y)[0] == a[0];
      assert (a + y)[1..] == a[1..] + y;
      TrimStartSpaces(a[1..], y);
    }
  }

  /** `rstrip()` of whitespace behind a text ending in a non-space. */
  lemma {:induction false} TrimEndSpaces(y: string, b: string)
    requires AllSpace(b) && y != [] && !IsSpace(y[|y| - 1])
    ensures TrimEnd(y + b) == y
    decreases |b|
  {
    if b == [] {
      assert y + b == y;
    } else {
      var c := b[..|b| - 1];
      assert (y + b)[|y + b| - 1] == b[|b| - 1];
      assert (y + b)[..|y + b| - 1] == y + c;
      TrimEndSpaces(y, c);
    }
  }

  /** A text file as `open(path).read()` sees it: its decoded text, or the text of the
      exception reading it raised. A file that does not exist is modelled separately. */
  datatype TextFile = Readable(text: string) | ReadError(detail: string)

  predicate StartsWith(s: string, prefix: string) {
    |prefix| <= |s| && s[..|prefix|] == prefix
  }

  predicate EndsWith(s: string, suffix: string) {
    |suffix| <= |s| && s[|s| - |suffix|..] == suffix
  }

  /** Python's `p in s` for two strings: `p` occurs somewhere in `s`. */
  predicate Occurs(p: string, s: string) {
    exists i :: 0 <= i <= |s| - |p| && OccursAt(p, s, i)
  }

  /** `p` occurs in `s` starting at index `i`. */
  predicate OccursAt(p: string, s: string, i: int) {
    0 <= i <= |s| - |p| && s[i..i + |p|] == p
  }

  lemma OccursInMiddle(a: string, p: string, b: string)
    ensures Occurs(p, a + p + b)
  {
    assert OccursAt(p, a + p + b, |a|);
  }

  /** An occurrence in `s` is one in `s + t`. */
  lemma OccursLeft(p: string, s: string, t: string)
    requires Occurs(p, s)
    ensures Occurs(p, s + t)
  {
    var i :| 0 <= i <= |s| - |p| && OccursAt(p, s, i);
    assert (s + t)[i..i + |p|] == s[i..i + |p|];
    assert OccursAt(p, s + t, i);
  }

  /** An occurrence in `t` is one in `s + t`. */
  lemma OccursRight(p: string, s: string, t: string)
    requires Occurs(p, t)
    ensures Occurs(p, s + t)
  {
    var i :| 0 <= i <= |t| - |p| && OccursAt(p, t, i);
    assert (s + t)[|s| + i..|s| + i + |p|] == t[i..i + |p|];
    assert OccursAt(p, s + t, |s| + i);
  }

  /** A text without the first character of `p` does not contain `p`. */
  lemma AbsentHead(p: string, s: string)
    requires p != [] && p[0] !in s
    ensures !Occurs(p, s)
  {
    forall i | 0 <= i <= |s| - |p| ensures !OccursAt(p, s, i) {
      assert s[i..i + |p|][0] == s[i];
    }
  }

  /** The position of the first `c` in `s`, as `s.index(c)`. */
  function FirstIndex(s: string, c: char): (i: nat)
    requires c in s
    ensures i < |s| && s[i] == c && c !in s[..i]
  {
    if s[0] == c then 0 else 1 + FirstIndex(s[1..], c)
  }

  /** The first `c` is at `n` when `s[n]` is `c` and no `c` comes before it. */
  lemma FirstIndexAt(s: string, c: char, n: nat)
    requires n < |s| && s[n] == c && c !in s[..n]
    ensures FirstIndex(s, c) == n
  {
    var i := FirstIndex(s, c);
    assert forall j :: 0 <= j < n ==> s[j] == s[..n][j] != c;
    assert forall j :: 0 <= j < i ==> s[j] == s[..i][j] != c;
  }

  /** Python's `s.replace(pat, rep)`: every non-overlapping occurrence of `pat`,
      scanning left to right, is replaced by `rep`. */
  function ReplaceAll(s: string, pat: string, rep: string): string
    requires pat != []
    decreases |s|
  {
    if |s| < |pat| then s
    else if s[..|pat|] == pat then rep + ReplaceAll(s[|pat|..], pat, rep)
    else [s[0]] + ReplaceAll(s[1..], pat, rep)
  }

  /** A prefix holding no possible start of `pat` passes through `replace` untouched. */
  lemma ReplaceSkip(s: string, pat: string, rep: string, n: nat)
    requires pat != [] && n <= |s| && pat[0] !in s[..n]
    ensures ReplaceAll(s, pat, rep) == s[..n] + ReplaceAll(s[n..], pat, rep)
  {
    assert s == s[..n] + s[n..];
    ReplacePrefix(s[..n], s[n..], pat, rep);
  }

  /** The same on a text given as its prefix `a` and the rest `b`. */
  lemma {:induction false} ReplacePrefix(a: string, b: string, pat: string, rep: string)
    requires pat != [] && pat[0] !in a
    ensures ReplaceAll(a + b, pat, rep) == a + ReplaceAll(b, pat, rep)
    decreases |a|
  {
    if a == [] {
      assert a + b == b;
    } else {
      var s := a + b;
      assert s[0] == a[0] && s[1..] == a[1..] + b;
      ReplaceMiss(s, pat, rep);
      ReplacePrefix(a[1..], b, pat, rep);
      assert [a[0]] + a[1..] == a;
    }
  }

  /** A text without the first character of `pat` is left alone. */
  lemma ReplaceAbsent(s: string, pat: string, rep: string)
    requires pat != [] && pat[0] !in s
    ensures ReplaceAll(s, pat, rep) == s
  {
    ReplacePrefix(s, [], pat, rep);
    assert s + [] == s;
  }

  /** A text shorter than `pat` is left alone. */
  lemma ReplaceShort(s: string, pat: string, rep: string)
    requires pat != [] && |s| < |pat|
    ensures ReplaceAll(s, pat, rep) == s
  {
  }

  /** Where `pat` cannot start, `replace` keeps the first character and moves on. */
  lemma ReplaceMiss(s: string, pat: string, rep: string)
    requires pat != [] && s != [] && s[0] != pat[0]
    ensures ReplaceAll(s, pat, rep) == [s[0]] + ReplaceAll(s[1..], pat, rep)
  {
    if |s| >= |pat| {
      assert s[..|pat|][0] == s[0];
    }
    ReplaceNoMatch(s, pat, rep);
  }

  /** Where `pat` does not occur at the start, `replace` keeps the first character. */
  lemma ReplaceNoMatch(s: string, pat: string, rep: string)
    requires pat != [] && s != [] && !StartsWith(s, pat)
    ensures ReplaceAll(s, pat, rep) == [s[0]] + ReplaceAll(s[1..], pat, rep)
  {
    if |s| < |pat| {
      ReplaceShort(s[1..], pat, rep);
      assert [s[0]] + s[1..] == s;
    }
  }

  /** Where `pat` occurs at the start, `replace` puts `rep` in its place. */
  lemma ReplaceHit(s: string, pat: string, rep: string)
    requires pat != [] && StartsWith(s, pat)
    ensures ReplaceAll(s, pat, rep) == rep + ReplaceAll(s[|pat|..], pat, rep)
  {
  }

  /** Replacing a pattern by itself is the identity. */
  lemma {:induction false} ReplaceBySelf(s: string, pat: string)
    requires pat != []
    ensures ReplaceAll(s, pat, pat) == s
    decreases |s|
  {
    if |s| < |pat| {
    } else if s[..|pat|] == pat {
      ReplaceBySelf(s[|pat|..], pat);
      assert pat + s[|pat|..] == s;
    } else {
      ReplaceBySelf(s[1..], pat);
      assert [s[0]] + s[1..] == s;
    }
  }

  /** Python's `s.split(sep)` for a one-character separator: at least one part,
      no part holds the separator, and joining the parts back gives `s`. */
  function SplitOn(s: string, sep: char): (parts: seq<string>)
    ensures |parts| >= 1
    ensures forall i :: 0 <= i < |parts| ==> sep !in parts[i]
    ensures |parts| == 1 <==> sep !in s
    ensures Join(parts, sep) == s
    decreases |s|
  {
    if sep !in s then [s]
    else
      var i := FirstIndex(s, sep);
      var tail := SplitOn(s[i + 1..], sep);
      var parts := [s[..i]] + tail;
      assert parts[0] == s[..i] && parts[1..] == tail;
      assert Join(parts, sep) == s by {
        JoinCons(s[..i], tail, sep);
        CutAt(s, i);
      }
      parts
  }

  /** Joining behind a first part puts the separator between them. */
  lemma JoinCons(head: string, tail: seq<string>, sep: char)
    requires |tail| >= 1
    ensures Join([head] + tail, sep) == head + [sep] + Join(tail, sep)
  {
    assert ([head] + tail)[1..] == tail;
  }

  /** A text is what comes before position `i`, the character there, and what follows. */
  lemma CutAt(s: string, i: nat)
    requires i < |s|
    ensures s == s[..i] + [s[i]] + s[i + 1..]
  {
  }

  /** `sep.join(parts)`. */
  function Join(parts: seq<string>, sep: char): string
    requires |parts| >= 1
  {
    if |parts| == 1 then parts[0] else parts[0] + [sep] + Join(parts[1..], sep)
  }

  /** The leading run of non-whitespace characters of `s`. */
  function Word(s: string): (w: string)
    ensures |w| <= |s| && w == s[..|w|] && NoSpace(w)
    ensures |w| == |s| || IsSpace(s[|w|])
  {
    if s == [] || IsSpace(s[0]) then [] else [s[0]] + Word(s[1..])
  }

  /** Python's `s.split()` with no argument: the maximal runs of non-whitespace characters. */
  function Fields(s: string): (fs: seq<string>)
    ensures Tokens(fs)
    decreases |s|
  {
    var t := TrimStart(s);
    if t == [] then []
    else
      var w := Word(t);
      var tail := Fields(t[|w|..]);
      TokensCons(w, tail);
      [w] + tail
  }

  /** Non-empty pieces without whitespace, as `split()` returns them. */
  predicate Tokens(fs: seq<string>) {
    forall i :: 0 <= i < |fs| ==> fs[i] != [] && NoSpace(fs[i])
  }

  lemma TokensCons(w: string, tail: seq<string>)
    requires w != [] && NoSpace(w) && Tokens(tail)
    ensures Tokens([w] + tail)
  {
    assert forall i :: 1 <= i < |[w] + tail| ==> ([w] + tail)[i] == tail[i - 1];
  }

  /** `" ".join(fs)`. */
  function Unwords(fs: seq<string>): string {
    if |fs| == 0 then [] else if |fs| == 1 then fs[0] else fs[0] + " " + Unwords(fs[1..])
  }

  lemma WordOfJoin(w: string, rest: string)
    requires NoSpace(w) && (rest == [] || IsSpace(rest[0]))
    ensures Word(w + rest) == w
    decreases |w|
  {
    if w != [] {
      assert (w + rest)[1..] == w[1..] + rest;
      WordOfJoin(w[1..], rest);
    } else {
      assert w + rest == rest;
    }
  }

  /** `split()` recovers the fields that `" ".join` put together. */
  lemma {:induction false} FieldsOfUnwords(fs: seq<string>)
    requires Tokens(fs)
    ensures Fields(Unwords(fs)) == fs
    decreases |fs|
  {
    if |fs| == 0 {
    } else if |fs| == 1 {
      assert fs[0] + [] == fs[0];
      WordOfJoin(fs[0], []);
      assert TrimStart(fs[0]) == fs[0];
      assert fs[0][|fs[0]|..] == [];
    } else {
      FieldsOfUnwords(fs[1..]);
      UnwordsHead(fs[1..]);
      FieldsCons(fs[0], Unwords(fs[1..]));
      assert fs == [fs[0]] + fs[1..];
    }
  }

  lemma FieldsCons(w: string, rest: string)
    requires w != [] && NoSpace(w) && (rest == [] || !IsSpace(rest[0]))
    ensures Fields(w + " " + rest) == [w] + Fields(rest)
  {
    var s := w + " " + rest;
    assert s == w + (" " + rest);
    assert s[0] == w[0];
    assert TrimStart(s) == s;
    WordOfJoin(w, " " + rest);
    assert s[|w|..] == " " + rest;
    assert (" " + rest)[1..] == rest;
    assert TrimStart(" " + rest) == TrimStart(rest) == rest;
  }

  /** Fields separated by runs of whitespace, as `df` pads its columns: `gaps[i]` stands
      between `fs[i]` and `fs[i + 1]`. */
  function Spread(fs: seq<string>, gaps: seq<string>): string
    requires |fs| >= 1 && |gaps| == |fs| - 1
    decreases |fs|
  {
    if |fs| == 1 then fs[0] else fs[0] + gaps[0] + Spread(fs[1..], gaps[1..])
  }

  predicate Gaps(gaps: seq<string>) {
    forall i :: 0 <= i < |gaps| ==> gaps[i] != [] && AllSpace(gaps[i])
  }

  /** `split()` recovers the fields however wide the whitespace between them. */
  lemma {:induction false} FieldsOfSpread(fs: seq<string>, gaps: seq<string>)
    requires |fs| >= 1 && |gaps| == |fs| - 1 && Tokens(fs) && Gaps(gaps)
    ensures Fields(Spread(fs, gaps)) == fs
    decreases |fs|
  {
    if |fs| == 1 {
      assert fs[0] + [] == fs[0];
      WordOfJoin(fs[0], []);
      assert TrimStart(fs[0]) == fs[0];
      assert fs[0][|fs[0]|..] == [];
    } else {
      assert fs == [fs[0]] + fs[1..];
      assert Tokens(fs[1..]) && Gaps(gaps[1..]) by {
        assert forall i :: 0 <= i < |fs| - 1 ==> fs[1..][i] == fs[i + 1];
        assert forall i :: 0 <= i < |gaps| - 1 ==> gaps[1..][i] == gaps[i + 1];
      }
      FieldsOfSpread(fs[1..], gaps[1..]);
      SpreadHead(fs[1..], gaps[1..]);
      FieldsGap(fs[0], gaps[0], Spread(fs[1..], gaps[1..]));
    }
  }

  lemma SpreadHead(fs: seq<string>, gaps: seq<string>)
    requires |fs| >= 1 && |gaps| == |fs| - 1 && fs[0] != []
    ensures Spread(fs, gaps) != [] && Spread(fs, gaps)[0] == fs[0][0]
  {
  }

  /** A field, a run of whitespace, then the rest: the field comes first. */
  lemma FieldsGap(w: string, gap: string, rest: string)
    requires w != [] && NoSpace(w) && gap != [] && AllSpace(gap) && rest != [] && !IsSpace(rest[0])
    ensures Fields(w + gap + rest) == [w] + Fields(rest)
  {
    var s := w + gap + rest;
    assert s == w + (gap + rest);
    assert s[0] == w[0];
    assert TrimStart(s) == s;
    WordOfJoin(w, gap + rest);
    assert s[|w|..] == gap + rest;
    TrimStartSpaces(gap, rest);
    TrimStartSpaces([], rest);
    assert [] + rest == rest;
  }

  lemma UnwordsHead(fs: seq<string>)
    requires |fs| >= 1 && fs[0] != []
    ensures Unwords(fs) != [] && Unwords(fs)[0] == fs[0][0]
  {
  }

  /** Python's line splitting with the given line-break characters, `\r\n` counting as one
      break and a break at the very end not opening an empty last line. */
  function SplitLinesBy(s: string, brk: char -> bool): (lines: seq<string>)
    ensures forall i, j :: 0 <= i < |lines| && 0 <= j < |lines[i]| ==> !brk(lines[i][j])
    ensures lines == [] <==> s == []
    decreases |s|
  {
    if s == [] then []
    else
      var i := FindBreak(s, brk);
      if i == |s| then [s]
      else [s[..i]] + SplitLinesBy(s[BreakEnd(s, i)..], brk)
  }

  /** The index of the first break in `s`, or `|s|` when there is none. */
  function FindBreak(s: string, brk: char -> bool): (i: nat)
    ensures i <= |s|
    ensures i < |s| ==> brk(s[i])
    ensures forall j :: 0 <= j < i ==> !brk(s[j])
  {
    if s == [] || brk(s[0]) then 0 else 1 + FindBreak(s[1..], brk)
  }

  /** Where the text after the break at `i` starts: `\r\n` is one break. */
  function BreakEnd(s: string, i: nat): (next: nat)
    requires i < |s|
    ensures i < next <= |s|
  {
    if s[i] == '\r' && i + 1 < |s| && s[i + 1] == '\n' then i + 2 else i + 1
  }

  /** The line boundaries of Python's `str.splitlines()`. */
  predicate IsLineBoundary(c: char) {
    c == '\n' || c == '\r' || c == '\U{0B}' || c == '\U{0C}' || c == '\U{1C}' || c == '\U{1D}'
    || c == '\U{1E}' || c == '\U{85}' || c == '\U{2028}' || c == '\U{2029}'
  }

  /** The line ends recognised when a text file is read line by line (universal newlines). */
  predicate IsNewline(c: char) {
    c == '\n' || c == '\r'
  }

  /** Every line is a piece of the text it was split from, starting at `k`. */
  lemma {:induction false} LineOccurs(s: string, brk: char -> bool, n: nat) returns (k: nat)
    requires n < |SplitLinesBy(s, brk)|
    ensures OccursAt(SplitLinesBy(s, brk)[n], s, k)
    decreases |s|, 1
  {
    if FindBreak(s, brk) == |s| || n == 0 {
      k := 0;
      FirstLine(s, brk);
    } else {
      k := LineOccursLater(s, brk, n);
    }
  }

  /** A line past the first break is found in the text after it, shifted by its start. */
  lemma {:induction false} LineOccursLater(s: string, brk: char -> bool, n: nat) returns (k: nat)
    requires FindBreak(s, brk) < |s| && 0 < n < |SplitLinesBy(s, brk)|
    ensures OccursAt(SplitLinesBy(s, brk)[n], s, k)
    decreases |s|, 0
  {
    var next := BreakEnd(s, FindBreak(s, brk));
    var t := s[next..];
    LaterLine(s, brk, n);
    var j := LineOccurs(t, brk, n - 1);
    OccursShift(SplitLinesBy(t, brk)[n - 1], s, t, next, j);
    k := next + j;
  }

  /** The first line starts the text. */
  lemma FirstLine(s: string, brk: char -> bool)
    requires s != []
    ensures OccursAt(SplitLinesBy(s, brk)[0], s, 0)
  {
    var i := FindBreak(s, brk);
    if i == |s| {
      assert s[0..|s|] == s;
    } else {
      assert s[..i] == s[0..i];
    }
  }

  /** Past a break, the lines are those of the text after it. */
  lemma LaterLine(s: string, brk: char -> bool, n: nat)
    requires FindBreak(s, brk) < |s| && 0 < n < |SplitLinesBy(s, brk)|
    ensures var t := s[BreakEnd(s, FindBreak(s, brk))..];
      n - 1 < |SplitLinesBy(t, brk)| && SplitLinesBy(s, brk)[n] == SplitLinesBy(t, brk)[n - 1]
  {
  }

  lemma OccursShift(p: string, s: string, t: string, n: nat, k: int)
    requires n <= |s| && t == s[n..] && OccursAt(p, t, k)
    ensures OccursAt(p, s, n + k)
  {
    assert t[k..k + |p|] == s[n + k..n + k + |p|];
  }

  predicate BreakFree(a: string, brk: char -> bool) {
    forall j :: 0 <= j < |a| ==> !brk(a[j])
  }

  /** A first line ended by a break other than `\r` is split off whole. */
  lemma SplitLinesCons(a: string, c: char, b: string, brk: char -> bool)
    requires brk(c) && c != '\r' && BreakFree(a, brk)
    ensures SplitLinesBy(a + [c] + b, brk) == [a] + SplitLinesBy(b, brk)
  {
    var s := a + [c] + b;
    assert s[|a|] == c;
    assert forall j :: 0 <= j < |a| ==> s[j] == a[j];
    var i := FindBreak(s, brk);
    assert i == |a|;
    assert BreakEnd(s, i) == i + 1;
    assert s[..i] == a && s[i + 1..] == b;
  }

  /** A first line ended by `\r\n` is split off whole: the pair is one break. */
  lemma SplitLinesCrLf(a: string, b: string, brk: char -> bool)
    requires brk('\r') && BreakFree(a, brk)
    ensures SplitLinesBy(a + "\r\n" + b, brk) == [a] + SplitLinesBy(b, brk)
  {
    var s := a + "\r\n" + b;
    assert s[|a|] == '\r' && s[|a| + 1] == '\n';
    assert forall j :: 0 <= j < |a| ==> s[j] == a[j];
    var i := FindBreak(s, brk);
    assert i == |a|;
    assert BreakEnd(s, i) == i + 2;
    assert s[..i] == a && s[i + 2..] == b;
  }

  /** A first line ended by a `\r` that no `\n` follows is split off whole. */
  lemma SplitLinesCr(a: string, b: string, brk: char -> bool)
    requires brk('\r') && BreakFree(a, brk) && !StartsWith(b, "\n")
    ensures SplitLinesBy(a + "\r" + b, brk) == [a] + SplitLinesBy(b, brk)
  {
    var s := a + "\r" + b;
    assert s[|a|] == '\r';
    assert b != [] ==> s[|a| + 1] == b[0] && b[..1] == [b[0]];
    assert forall j :: 0 <= j < |a| ==> s[j] == a[j];
    var i := FindBreak(s, brk);
    assert i == |a|;
    assert BreakEnd(s, i) == i + 1;
    assert s[..i] == a && s[i + 1..] == b;
  }

  /** The text of `lines`, each followed by its line end (the last one may have none). */
  function JoinLines(lines: seq<string>, ends: seq<string>): string
    requires |ends| == |lines|
  {
    if lines == [] then [] else lines[0] + ends[0] + JoinLines(lines[1..], ends[1..])
  }

  /** One line end: `\r\n` or a single break character. */
  predicate LineEnd(e: string, brk: char -> bool) {
    e == "\r\n" || (|e| == 1 && brk(e[0]))
  }

  /** Break-free lines, each ended by a line end except possibly a non-empty last one, and
      no lone `\r` directly followed by `\n`, which would read as one `\r\n` break. */
  predicate Layout(lines: seq<string>, ends: seq<string>, brk: char -> bool) {
    && |ends| == |lines|
    && (forall i :: 0 <= i < |lines| ==> BreakFree(lines[i], brk))
    && (forall i :: 0 <= i < |lines| ==>
          LineEnd(ends[i], brk) || (i == |lines| - 1 && ends[i] == [] && lines[i] != []))
    && (forall i :: 0 <= i < |lines| - 1 && ends[i] == "\r" ==> !StartsWith(lines[i + 1] + ends[i + 1], "\n"))
  }

  /** Splitting the text of laid-out lines gives those lines back, whatever line ends join
      them; so the lines cover the whole text, in order. */
  lemma {:induction false} SplitLinesOfJoin(lines: seq<string>, ends: seq<string>, brk: char -> bool)
    requires brk('\r') && Layout(lines, ends, brk)
    ensures SplitLinesBy(JoinLines(lines, ends), brk) == lines
    decreases |lines|
  {
    if lines != [] {
      var rest := JoinLines(lines[1..], ends[1..]);
      assert SplitLinesBy(rest, brk) == lines[1..] by {
        LayoutTail(lines, ends, brk);
        SplitLinesOfJoin(lines[1..], ends[1..], brk);
      }
      assert SplitLinesBy(lines[0] + ends[0] + rest, brk) == [lines[0]] + SplitLinesBy(rest, brk) by {
        assert ends[0] == "\r" ==> !StartsWith(rest, "\n") by {
          if ends[0] == "\r" && |lines| > 1 {
            RestStart(lines, ends);
          }
        }
        SplitLinesStep(lines[0], ends[0], rest, brk);
      }
      assert lines == [lines[0]] + lines[1..];
    }
  }

  lemma LayoutTail(lines: seq<string>, ends: seq<string>, brk: char -> bool)
    requires lines != [] && Layout(lines, ends, brk)
    ensures Layout(lines[1..], ends[1..], brk)
  {
    assert forall i :: 0 <= i < |lines| - 1 ==> lines[1..][i] == lines[i + 1] && ends[1..][i] == ends[i + 1];
  }

  /** One line and its end, then the rest of the text: the line is split off whole. */
  lemma SplitLinesStep(a: string, e: string, rest: string, brk: char -> bool)
    requires brk('\r') && BreakFree(a, brk)
    requires LineEnd(e, brk) || (e == [] && a != [] && rest == [])
    requires e == "\r" ==> !StartsWith(rest, "\n")
    ensures SplitLinesBy(a + e + rest, brk) == [a] + SplitLinesBy(rest, brk)
  {
    if e == [] {
      assert a + e + rest == a;
      SplitLinesSingle(a, brk);
    } else if e == "\r\n" {
      SplitLinesCrLf(a, rest, brk);
    } else if e == "\r" {
      SplitLinesCr(a, rest, brk);
    } else {
      assert e == [e[0]];
      SplitLinesCons(a, e[0], rest, brk);
    }
  }

  /** After a lone `\r`, the rest of the text starts with the next line and its end. */
  lemma RestStart(lines: seq<string>, ends: seq<string>)
    requires |ends| == |lines| >= 2 && lines[1] + ends[1] != []
    requires !StartsWith(lines[1] + ends[1], "\n")
    ensures !StartsWith(JoinLines(lines[1..], ends[1..]), "\n")
  {
    var head := lines[1] + ends[1];
    var rest := JoinLines(lines[1..], ends[1..]);
    assert rest == head + JoinLines(lines[2..], ends[2..]);
    assert rest[0] == head[0];
  }

  /** A break-free non-empty text is a single line. */
  lemma SplitLinesSingle(a: string, brk: char -> bool)
    requires a != [] && BreakFree(a, brk)
    ensures SplitLinesBy(a, brk) == [a]
  {
    assert FindBreak(a, brk) == |a|;
  }

  /** Python's `a <= b` on strings: code-point lexicographic order, a proper prefix first. */
  predicate LexLeq(a: string, b: string) {
    a == [] || (b != [] && (a[0] < b[0] || (a[0] == b[0] && LexLeq(a[1..], b[1..]))))
  }

  lemma LexLeqReflexive(a: string)
    ensures LexLeq(a, a)
  {
  }

  lemma LexLeqTotal(a: string, b: string)
    ensures LexLeq(a, b) || LexLeq(b, a)
  {
  }

  lemma LexLeqAntisymmetric(a: string, b: string)
    requires LexLeq(a, b) && LexLeq(b, a)
    ensures a == b
  {
  }

  lemma LexLeqTransitive(a: string, b: string, c: string)
    requires LexLeq(a, b) && LexLeq(b, c)
    ensures LexLeq(a, c)
  {
  }

  /** A shared prefix does not change how two strings compare. */
  lemma {:induction false} LexLeqCommonPrefix(p: string, a: string, b: string)
    ensures LexLeq(p + a, p + b) <==> LexLeq(a, b)
    decreases |p|
  {
    if p != [] {
      assert (p + a)[1..] == p[1..] + a && (p + b)[1..] == p[1..] + b;
      LexLeqCommonPrefix(p[1..], a, b);
    } else {
      assert p + a == a && p + b == b;
    }
  }

  /** Two different heads of the same length decide the comparison, whatever follows. */
  lemma {:induction false} LexLeqSameWidthHeads(a: string, b: string, x: string, y: string)
    requires |a| == |b| && a != b
    ensures LexLeq(a + x, b + y) <==> LexLeq(a, b)
    decreases |a|
  {
    assert a != [];
    assert (a + x)[0] == a[0] && (b + y)[0] == b[0];
    if a[0] == b[0] {
      assert a[1..] != b[1..] by { assert a == [a[0]] + a[1..] && b == [b[0]] + b[1..]; }
      assert (a + x)[1..] == a[1..] + x && (b + y)[1..] == b[1..] + y;
      LexLeqSameWidthHeads(a[1..], b[1..], x, y);
    }
  }
}

=== FILE: wrappers.dfy ===
/** The conventional optional-value datatype used across the model. */
module Wrappers {

  datatype Option<+T> = None | Some(value: T) {

    /** Returns the value held in Some, or the given default for None
        (Python's `d.get(key, default)` idiom once the lookup is done). */
    function GetOr(default: T): (r: T)
      ensures Some? ==> r == value
      ensures None? ==> r == default
    {
      match this
      case Some(v) => v
      case None => default
    }
  }
}
